=== FILE: README.md ===
# Job portal filters and job lists, modelled in Dafny

This project models the client-side core of a job-listing web application:
- the filter sheet, which edits a record of fourteen job-search criteria and keeps it in step with the page's URL query;
- the five panels the sheet opens for single criteria: date, experience, company, job type and remote;
- the quick-filter chip bar and the two pages that wire the bar and the sheet together: the jobs page and the search results page;
- the job-search hook, the "top job picks" block, the search page with its server-side history, and the notification category filter.

Each React component or hook that updates state becomes a Dafny `class`:
- its `useState` variables are fields;
- its event handlers are methods with `modifies this`;
- every method states the complete new state: each field it assigns, and that every other field keeps its value.

The pure parts are functions with contracts, and the lemmas beside them relate those functions to each other. The pure parts are:
- decoding and encoding the query;
- the summary the sheet reports;
- toggling a chip;
- building request parameters;
- choosing between server jobs and fallback jobs;
- removing a dismissed job;
- trimming a search.

Network requests are not performed. Each handler that awaits a request takes the request's outcome as a parameter:
- `Outcome`, `HistoryAnswer` or `Preferences` for answers;
- a boolean such as `stored` or `acknowledged` for plain success.

Request parameters and navigation targets are returned as values.

What the proofs establish, in the system's own terms:

- **Query encoding** (`filter_codec.dfy`). The encoder visits the record's entries in order:
  - it writes a switch only when it is on;
  - it writes a text criterion only when its value is none of the three sentinels "Any", "Anytime" and "Most relevant";
  - it always writes an applied company list, comma-joined.

  Decoding the encoding returns the record exactly when the record is *recoverable*. That means the company is a single name, and every text criterion is either its own default or non-empty and not a sentinel (`RoundTripExactly`). In particular:
  - experience "Anytime", the experience panel's own default, comes back as "Any";
  - remote "Anytime" also comes back as "Any";
  - a company list comes back as one comma-joined string.

  The summary the sheet reports compares date with "Anytime" and experience with "Any" only. It therefore disagrees with the query exactly when a field holds another field's sentinel.
- **Panels.** The date panel starts at "Any time". That value is not a sentinel, so applying the date panel unchanged writes `datePosted=Any time` into the query. The company panel:
  - removes every copy of a selected name;
  - appends an unselected one;
  - keeps its options free of duplicates;
  - brings a selection back to the same multiset after two toggles of one name.
- **Chip bar and jobs page.** A chip click flips one key and adds it when missing, so two clicks restore the record only when the key was present. The chips are keyed `jobs`/`easy`/`date`/`exp`, while the jobs page keys its toggles `jobs`/`easyApply`/`datePosted`/`experienceLevel`. Two consequences:
  - The page reads the sheet's report under `job`/`easy`/`date`/`exp`, which the report never has. Applying the sheet therefore turns all four toggles off, including `jobs`.
  - The page's criteria record, which the job list receives, never leaves its defaults. `JobPage.Reachable` is preserved by `ClickChip`, by `SetSheetOpen`, and by `SheetChange` when it is given the sheet's summary.
- **Job lists.**
  - A failed request, or an answer without success, shows the built-in listings and never an error.
  - "No jobs found" appears only when the server succeeded with no jobs.
  - A dismissed job leaves the list only after the server acknowledges it, and the remaining jobs keep their order.
  - The recommendations block instead removes a job at once and reports an error together with its own fallback listings.
- **Search page.**
  - A blank search sends nothing.
  - Otherwise the saved text is the trimmed text, which is non-empty and stable under a second trim.
  - After the save the page navigates to `returnTo`, or to `/jobs` when `returnTo` is missing or empty.
  - The location box is never read.

Three facts about the code shape the model:
- The code has no client-side evaluator that filters jobs by the criteria, no result pager and no guard against stale responses. The results page's job requests carry its chip toggles. The jobs page's job list sends the whole criteria record instead: every criterion goes into the request, and the record's own `location` ("Any" by default) replaces "Kerala".
- The chip bar synchronises only `easyApply` with the criteria. It never sets or resets other detailed criteria.
- In `useJobs.ts` and `JobResults.tsx`, dismissal is not optimistic: the job is removed only after the server acknowledges it. `TopJobsPicks.tsx` removes the job at once and sends no request.

## Model

| member | source | states |
|---|---|---|
| FilterCodec.Value | src/features/jobs/components/FilterSheet.tsx:21-36 | a criterion's value is a boolean exactly for the four switches, and only `company` can hold a list |
| FilterCodec.Set | src/features/jobs/components/FilterSheet.tsx:156-158 | the single-field update: field `f` takes the value and every other field keeps its value |
| FilterCodec.DecodeField | src/features/jobs/components/FilterSheet.tsx:64-79 | decoding per field: a switch is on iff its parameter is "true"; a text field takes its parameter when present and non-empty, else its own default ("Anytime" for date, "Most relevant" for sort, "Any" otherwise) |
| FilterCodec.Decode | src/features/jobs/components/FilterSheet.tsx:64-79 | a decoded record never holds an empty text (a missing or empty parameter gives the default) and its company is always a single name |
| FilterCodec.DefaultsAreDecodedEmptyQuery | src/features/jobs/components/FilterSheet.tsx:190-207 | the reset record is what an empty query decodes to: every switch off, every text field at its default |
| FilterCodec.Encoded | src/features/jobs/components/FilterSheet.tsx:88-100 | the written query: a switch key is present (as "true") iff on; a text key is present (with its value) iff the value is not a sentinel; a company list is written comma-joined; no other key appears |
| FilterCodec.EncodeQuery | src/features/jobs/components/FilterSheet.tsx:89-98 | the loop over the record's entries builds exactly the query `Encoded` describes |
| FilterCodec.EncodeDefaults | src/features/jobs/components/FilterSheet.tsx:190-207 | encoding the reset record gives the empty query |
| FilterCodec.EditChangesOneKey | src/features/jobs/components/FilterSheet.tsx:156-158 | a single-field edit changes the query at that field's key and nowhere else |
| FilterCodec.RoundTrip | src/features/jobs/components/FilterSheet.tsx:64-100 | decoding the encoding of a recoverable record gives the record back |
| FilterCodec.RoundTripExactly | src/features/jobs/components/FilterSheet.tsx:64-100 | the round trip succeeds iff the record is recoverable |
| FilterCodec.ExperienceAnytimeComesBackAny | src/features/jobs/components/FilterSheet.tsx:94 | experience "Anytime" is not written and decodes to "Any" |
| FilterCodec.CompanyListComesBackJoined | src/features/jobs/components/FilterSheet.tsx:362-368 | an applied company list decodes to its comma-joined string, or to "Any" when that is empty |
| FilterCodec.NormalisedQueryIsSubmap | src/features/jobs/components/FilterSheet.tsx:88-100 | re-encoding a decoded query keeps only keys of the original query, with their original values |
| FilterCodec.SummaryDisagreesWithQuery | src/features/jobs/components/FilterSheet.tsx:171-176 | the summary flags for date and experience differ from "key is in the query" iff the field holds another field's sentinel |
| FilterCodec.Summary | src/features/jobs/components/FilterSheet.tsx:171-176 | the summary has exactly the keys `jobs`, `easyApply`, `datePosted`, `experienceLevel`; `jobs` is on, and date and experience are flagged iff they differ from their decoded defaults |
| Strings.Trim | src/pages/SearchPage.tsx:54 | `trim`: the result neither starts nor ends with whitespace, and is empty iff the input is blank |
| Strings.TrimKeepsText | src/pages/SearchPage.tsx:54 | the trimmed text is a contiguous slice `s[i..j]` of the input with only whitespace before `i` and after `j`, so the user's text survives |
| Strings.TrimIdempotent | src/pages/SearchPage.tsx:60 | trimming a trimmed text changes nothing |
| Strings.Join | src/features/jobs/components/FilterSheet.tsx:96 | a list's string form is empty iff the list is empty or holds one empty string, and a one-element list gives its element |
| Lists.Filter | src/features/jobs/hooks/useJobs.ts:50 | `filter`: an element is in the result iff it is in the input and passes, and each passing element keeps exactly its number of copies, the others none |
| FilterSheets.Merge | src/features/jobs/components/FilterSheet.tsx:123 | merging saved preferences: every saved field takes the saved value, every other field keeps its value |
| FilterSheets.MergeNothing | src/features/jobs/components/FilterSheet.tsx:123 | merging no saved field leaves the record unchanged |
| FilterSheets.MergeIdempotent | src/features/jobs/components/FilterSheet.tsx:117-131 | loading the same preferences twice gives the same record as loading them once |
| FilterSheets.MergeEverything | src/features/jobs/components/FilterSheet.tsx:123 | a complete set of saved preferences replaces the record, whatever it was |
| FilterSheets.Loaded | src/features/jobs/components/FilterSheet.tsx:117-131 | a successful answer with filters overrides exactly the saved fields; a failed request or any other answer keeps the record |
| FilterSheets.FilterSheet.constructor | src/features/jobs/components/FilterSheet.tsx:64-100 | mounting decodes the page query, shows the main list, and leaves the query equal to the record's encoding |
| FilterSheets.FilterSheet.LoadPreferences | src/features/jobs/components/FilterSheet.tsx:117-131 | a successful answer with filters merges them over the record, anything else keeps it; the query stays the record's encoding |
| FilterSheets.FilterSheet.SwitchChange | src/features/jobs/components/FilterSheet.tsx:156-158 | a switch takes the new value, everything else and the panel are kept, and the query follows |
| FilterSheets.FilterSheet.OpenPanel | src/features/jobs/components/FilterSheet.tsx:289-293 | a link row opens the panel named by its key; the record is unchanged |
| FilterSheets.FilterSheet.Back | src/features/jobs/components/FilterSheet.tsx:241-243 | Back (and every panel's close) shows the main list; the record is unchanged |
| FilterSheets.FilterSheet.PanelApply | src/features/jobs/components/FilterSheet.tsx:330-397 | a panel's apply sets exactly its criterion, returns to the main list, and the query follows |
| FilterSheets.FilterSheet.Reset | src/features/jobs/components/FilterSheet.tsx:190-207 | Reset installs the defaults and the query becomes empty |
| FilterSheets.FilterSheet.Save | src/features/jobs/components/FilterSheet.tsx:164-185 | when the record was stored, the summary is reported and the sheet asks to close; otherwise nothing is reported and it stays open |
| SubSheets.ChoiceSheet.Date | src/features/jobs/components/DateFilterSheet.tsx:17-24 | the date panel offers its four options, starts at "Any time" and does not close on apply |
| SubSheets.ChoiceSheet.Experience | src/features/jobs/components/ExperienceFilterSheet.tsx:4-19 | the experience panel offers its options and starts at the given selection, "Anytime" by default |
| SubSheets.ChoiceSheet.Remote | src/features/jobs/components/RemoteFilterSheet.tsx:5-20 | the remote panel offers On-site/Remote/Hy-brid and starts at the given selection, "Anytime" by default |
| SubSheets.ChoiceSheet.JobType | src/features/jobs/components/JobTypeFilterSheet.tsx:6-22 | the job type panel offers its five options and starts at the given selection, its first option by default |
| SubSheets.ChoiceSheet.Click | src/features/jobs/components/DateFilterSheet.tsx:87 | clicking an offered option makes it the selection |
| SubSheets.ChoiceSheet.ApplySelection | src/features/jobs/components/DateFilterSheet.tsx:35-37 | apply reports the selection, then closes, except for the date panel, which only reports |
| SubSheets.Without | src/features/jobs/components/CompanyFilterSheet.tsx:27 | removing a name removes every copy and keeps every other name |
| SubSheets.ToggleSelection | src/features/jobs/components/CompanyFilterSheet.tsx:25-29 | a selected name is removed, an unselected one appended at the end; no other name changes membership |
| SubSheets.ToggleTwice | src/features/jobs/components/CompanyFilterSheet.tsx:25-29 | two toggles of an unselected name restore the selection; of a selected name (no duplicates), the same multiset with the name moved last |
| SubSheets.ToggleKeepsNoDuplicates | src/features/jobs/components/CompanyFilterSheet.tsx:25-29 | toggling keeps a selection free of duplicates |
| SubSheets.CompanySheet.constructor | src/features/jobs/components/CompanyFilterSheet.tsx:18-22 | the panel starts with the two built-in companies, the given selection (empty by default) and an empty input |
| SubSheets.CompanySheet.Click | src/features/jobs/components/CompanyFilterSheet.tsx:102 | clicking a company toggles it in the selection; options and input are kept |
| SubSheets.CompanySheet.Type | src/features/jobs/components/CompanyFilterSheet.tsx:86 | typing replaces the input only |
| SubSheets.CompanySheet.Submit | src/features/jobs/components/CompanyFilterSheet.tsx:36-45 | a non-blank input is added to the options unless present and toggled in the selection; a blank one changes neither; options only grow, stay duplicate-free, and the input is cleared |
| SubSheets.CompanySheet.ApplySelection | src/features/jobs/components/CompanyFilterSheet.tsx:31-34 | apply reports the selected list, then closes |
| SubSheets.DateDefaultIsWrittenAndFlagged | src/features/jobs/components/DateFilterSheet.tsx:17 | applying "Any time" writes it to the query and the summary flags the date as active |
| SubSheets.ExperienceDefaultIsHiddenButFlagged | src/features/jobs/components/ExperienceFilterSheet.tsx:17 | applying "Anytime" leaves experience out of the query and it decodes to "Any", yet the summary flags it as active |
| SubSheets.RemoteDefaultIsLost | src/features/jobs/components/RemoteFilterSheet.tsx:18 | "Anytime" is not a remote option; applying it leaves remote out of the query and it decodes to "Any" |
| SubSheets.JobTypeDefaultIsWritten | src/features/jobs/components/JobTypeFilterSheet.tsx:19 | applying the default "Full Time" writes it to the query |
| QuickFilters.Toggle | src/features/jobs/components/FilterBar.tsx:27-33 | a chip click adds its key if missing, flips what the key reads as, and keeps every other key |
| QuickFilters.ToggleTwiceRestores | src/features/jobs/components/FilterBar.tsx:27-33 | two clicks on a chip whose key is present restore the record |
| QuickFilters.ToggleTwiceAbsent | src/features/jobs/components/FilterBar.tsx:27-33 | two clicks on a chip whose key is missing leave every chip reading the same, but the key is now present as false |
| QuickFilters.ToggleCommutes | src/features/jobs/components/FilterBar.tsx:27-33 | clicks on two chips give the same record in either order |
| JobPages.FromSheet | src/pages/JobPage.tsx:73-82 | the four page toggles are read from the report's `job`/`easy`/`date`/`exp` (missing means false); other keys are kept |
| JobPages.SheetSummaryClearsToggles | src/pages/JobPage.tsx:73-82 | for every record, the sheet's summary turns all four page toggles off |
| JobPages.ChipsLeaveEasyApply | src/pages/JobPage.tsx:57-67 | no chip click changes the page's `easyApply` key |
| JobPages.AsParam | src/features/jobs/hooks/useJobs.ts:25 | a criterion is sent unchanged: a text as that text, a switch as that boolean, a company list as that array |
| JobPages.CriteriaParams | src/features/jobs/components/JobList.tsx:11-12 | the criteria record as the hook's filter object: every criterion under its key, and nothing else |
| JobPages.JobListRequest | src/pages/JobPage.tsx:143 | for any criteria, the job list's request has no `search`, carries the record's own `location` instead of "Kerala", and every criterion under its key |
| JobPages.JobPage.constructor | src/pages/JobPage.tsx:22-46 | only `jobs` is on, the criteria are the defaults, the sheet is closed |
| JobPages.JobPage.BarChange | src/pages/JobPage.tsx:57-67 | the bar's record replaces the toggles, and the criteria's `easyApply` follows it with every other criterion kept |
| JobPages.JobPage.ClickChip | src/features/jobs/components/FilterBar.tsx:27-33 | a chip click flips the chip's key and leaves the criteria at their defaults |
| JobPages.JobPage.SheetChange | src/pages/JobPage.tsx:73-82 | the sheet's report overwrites the four toggles and keeps the criteria |
| JobPages.JobPage.SetSheetOpen | src/pages/JobPage.tsx:87-97 | opening or closing the sheet changes nothing else |
| JobPages.JobPage.ListRequest | src/pages/JobPage.tsx:143 | on every reachable page the job list asks for location "Any", with no search text and every switch false |
| Jobs.Listed | src/features/jobs/hooks/useJobs.ts:30-37 | a successful answer gives its jobs (none gives the empty list); a failure or an unsuccessful answer gives the fallback listings |
| Jobs.EmptyOnlyWhenServerSaysSo | src/features/jobs/hooks/useJobs.ts:30-37 | the list is empty after a request iff the server succeeded with no jobs |
| Jobs.Dismissed | src/features/jobs/hooks/useJobs.ts:50 | a job is kept iff its id differs from the dismissed one, with exactly as many copies as before |
| Jobs.DismissKeepsOrder | src/features/jobs/hooks/useJobs.ts:50 | the remaining jobs keep their order |
| Jobs.DismissIdempotent | src/features/jobs/hooks/useJobs.ts:47-54 | dismissing an unknown id changes nothing, and dismissing twice equals dismissing once |
| Jobs.DismissedAll | src/features/jobs/components/TopJobsPicks.tsx:94-95 | after dismissing a sequence of ids one by one, a job is left iff it was listed and its id is none of them |
| Jobs.DismissedAllEmpty | src/features/jobs/components/TopJobsPicks.tsx:94-95 | dismissing a sequence of ids empties the list iff every listed job's id is among them |
| Jobs.SearchParams | src/features/jobs/hooks/useJobs.ts:25-26 | the request carries the location "Kerala" unless a filter overrides it, every filter entry as passed, and `search` exactly when the text is non-empty |
| Jobs.Flags | src/pages/JobResults.tsx:88-91 | a toggle record as request parameters: the same keys, each sent as its boolean |
| JobsHooks.JobsHook.constructor | src/features/jobs/hooks/useJobs.ts:15-18 | the hook starts with no jobs, loading and no error |
| JobsHooks.JobsHook.Fetch | src/features/jobs/hooks/useJobs.ts:20-41 | the request carries the search parameters; afterwards the list is the server's jobs or the fallback listings, loading is over and there is no error |
| JobsHooks.JobsHook.Dismiss | src/features/jobs/hooks/useJobs.ts:47-54 | the job leaves the list only when the server acknowledged the dismissal |
| JobResultsPages.View | src/pages/JobResults.tsx:178-188 | the render ladder in both directions: loading shows the loading text; otherwise a non-empty error shows the error; otherwise an empty list shows "No jobs found"; otherwise one card per job |
| JobResultsPages.ViewAfterFetch | src/pages/JobResults.tsx:84-106 | after a request no error is shown, a failure shows the built-in listings, and "No jobs found" appears iff the server succeeded with no jobs |
| JobResultsPages.SheetSummaryHidesChips | src/pages/JobResults.tsx:164-171 | once the sheet has reported, the Jobs chip reads on and the other three chips read off |
| JobResultsPages.JobResultsPage.constructor | src/pages/JobResults.tsx:70-80 | no jobs, loading, no error, empty search text, the Jobs and Easy Apply chips on, sheet closed |
| JobResultsPages.JobResultsPage.Fetch | src/pages/JobResults.tsx:84-106 | the request carries the given text and toggles; the list is the server's jobs or the built-in listings, with no error |
| JobResultsPages.JobResultsPage.Mount | src/pages/JobResults.tsx:108-110 | the first request carries only the location "Kerala" |
| JobResultsPages.JobResultsPage.FiltersChange | src/pages/JobResults.tsx:121-124 | new toggles replace the old and are sent with the page's search text |
| JobResultsPages.JobResultsPage.ClickChip | src/pages/JobResults.tsx:158-162 | a chip click flips its key and refetches with the new toggles; the sheet stays as it was |
| JobResultsPages.JobResultsPage.SetSheetOpen | src/pages/JobResults.tsx:161-166 | opening or closing the sheet changes nothing else |
| JobResultsPages.JobResultsPage.Dismiss | src/pages/JobResults.tsx:126-133 | the job leaves the list only when the server acknowledged the dismissal; toggles, loading, error and sheet are kept |
| TopPicks.RecommendationParams | src/features/jobs/components/TopJobsPicks.tsx:64-70 | type `top_picks`, location "Kerala", and a limit of 10 exactly when not all jobs are asked for |
| TopPicks.OffersShowAll | src/features/jobs/components/TopJobsPicks.tsx:130 | the button is offered only when loading is over, some job is listed and all were not asked for, hence only while the request carried the limit of 10 |
| TopPicks.RendersNothing | src/features/jobs/components/TopJobsPicks.tsx:101-103 | the block renders nothing exactly when an error is set and no job is left, and such a block never offers the "show all" button |
| TopPicks.FallbackHiddenExactlyWhenAllDismissed | src/features/jobs/components/TopJobsPicks.tsx:79-103 | after a failure, for any sequence of dismissed ids in any order, the block renders nothing iff ids 1, 2 and 3 are all among them |
| TopPicks.TopJobsPicks.constructor | src/features/jobs/components/TopJobsPicks.tsx:50-53 | no jobs, loading, no error, show-all not chosen |
| TopPicks.TopJobsPicks.Fetch | src/features/jobs/components/TopJobsPicks.tsx:59-87 | on success the server's jobs and no error; on failure the fallback listings and "Failed to load recommended jobs" |
| TopPicks.TopJobsPicks.ShowAll | src/features/jobs/components/TopJobsPicks.tsx:89-92 | show-all is remembered, the button is no longer offered, the request has no limit, and afterwards loading is over with the listed jobs, and the error is set exactly on failure |
| TopPicks.TopJobsPicks.Dismiss | src/features/jobs/components/TopJobsPicks.tsx:94-99 | the job leaves the list at once, and its id is passed on exactly when the parent gave a handler |
| SearchPages.Refreshed | src/pages/SearchPage.tsx:38-50 | a successful answer replaces the history (empty when none is sent); anything else keeps it |
| SearchPages.FinalQuery | src/pages/SearchPage.tsx:53 | a non-empty argument wins, otherwise the box text; the result is empty iff both are |
| SearchPages.ReturnPath | src/pages/SearchPage.tsx:67 | the return path is `returnTo` when that is present and non-empty, and "/jobs" otherwise; never empty |
| SearchPages.RequestFor | src/pages/SearchPage.tsx:52-62 | nothing is posted iff the text is blank; otherwise the trimmed text, non-empty, without surrounding whitespace, with the fixed location |
| SearchPages.DeleteKeepsOthers | src/pages/SearchPage.tsx:100 | deleting an entry keeps every other entry, in order |
| SearchPages.SearchPage.constructor | src/pages/SearchPage.tsx:24-31 | both boxes empty, no history, not loading |
| SearchPages.SearchPage.LoadHistory | src/pages/SearchPage.tsx:38-50 | the history becomes the refreshed history; nothing else changes |
| SearchPages.SearchPage.SetCompanyName | src/pages/SearchPage.tsx:140-145 | typing or clearing replaces the first box's text only |
| SearchPages.SearchPage.SetLocationText | src/pages/SearchPage.tsx:160-165 | typing or clearing replaces the location box's text only |
| SearchPages.SearchPage.Search | src/pages/SearchPage.tsx:52-81 | a blank text sends nothing; otherwise the trimmed text is posted, and on success the history is refreshed and the page navigates back with the trimmed text; loading is over after a request and untouched by a blank one |
| SearchPages.SearchPage.ClickHistoryItem | src/pages/SearchPage.tsx:84-90 | the search runs with the entry's text (the previous box text if that is empty) and navigates back with the trimmed text; loading is over after a request; the box then shows the entry's text and the location box is kept |
| SearchPages.SearchPage.DeleteItem | src/pages/SearchPage.tsx:92-107 | the entry leaves the history only when the server acknowledged the deletion |
| SearchPages.SearchPage.ClearAll | src/pages/SearchPage.tsx:109-119 | the history empties only when the server acknowledged it |
| NotificationFilters.KindName | src/features/notifications/hooks/useFilter.tsx:4 | each category option names one of "preference", "posts", "mentions" |
| NotificationFilters.Visible | src/features/notifications/hooks/useFilter.tsx:13-16 | "all" shows every notification; a category shows exactly the notifications of that category, each as many times as it occurs in the list |
| NotificationFilters.VisibleKeepsOrder | src/features/notifications/hooks/useFilter.tsx:15 | what a filter shows keeps the order of the full list |
| NotificationFilters.CategoriesAreDisjoint | src/features/notifications/hooks/useFilter.tsx:15 | two different categories never show the same notification |
| NotificationFilters.NotificationFilter.constructor | src/features/notifications/hooks/useFilter.tsx:5-7 | the selection starts at the default value, "all" unless given |
| NotificationFilters.NotificationFilter.Change | src/features/notifications/hooks/useFilter.tsx:9-12 | the selection becomes the chosen option |
| NotificationFilters.NotificationFilter.Reset | src/features/notifications/hooks/useFilter.tsx:18 | the selection returns to the default value |
| NotificationFilters.NotificationFilter.Shown | src/features/notifications/hooks/useFilter.tsx:13-16 | under "all" every notification is shown; under a category exactly the notifications of that category, with their number of copies; nothing outside the list is shown |

## Left out

- Rendering, animation, portals and styling are not modelled. The model keeps only the state a rendered decision reads: the panel shown, the results view, whether the recommendations block or its show-all button appears.
- Escape-key and overlay-click handlers are not modelled. They only call the parent's `onClose`, which `JobPage.SetSheetOpen` and `JobResultsPage.SetSheetOpen` cover.
- HTTP requests are not performed. Every awaited request is replaced by a parameter that gives its outcome. Console and alert output on failure is not modelled.
- The `loading` flag of the filter sheet's Save button is not modelled. Neither are the intermediate states of the other loading flags while a request is pending.
- Asynchronous interleaving is not modelled: each handler runs to completion, with its request's outcome, before the next one starts. React's batching of state updates within one event is modelled by the order of assignments. For a history click, that means the search sees the box text from before the click.
- FilterSheets.FilterSheet.LoadPreferences: saved preferences are assumed to have the type of their fields. An ill-typed value from the server, such as a number for a text field, is outside the model. Saved preferences with keys outside the fourteen criteria are also outside the model: the record type admits any extra key, so the spread would bring such keys into the record and the encoder would write them into the URL.
- JobPages.JobPage: the page also calls the job hook itself with its search text and no filters, which sends a second request with only `location: "Kerala"` on mount and discards the result. That request is not modelled; only the job list's request is (`JobPage.ListRequest`).
- JobPages.JobPage.BarChange: requires the reported record to contain `easyApply`. The page's toggle type declares the key, and the bar always passes a copy of the page's record, which has it.
- NotificationFilters.NotificationFilter.constructor: the notifications come from a mock data file that is not part of this model, so the list is a constructor parameter. A notification is reduced to its category name and its remaining content.
- `EasyApplyFilterSheet.tsx`, `LocationSelector.tsx`, the search bar, job cards, job list and the notification components are not part of this model. None of them is reached from the modelled handlers with state of its own that the core reads.
- The jobs page's search text is never changed: its box is read-only, and its change handler returns the handler instead of calling it. That page's search therefore always runs with the empty text, and the model does not give the page a search-text field.
- `JobResults.tsx` keeps its own copy of the built-in listings. That copy is identical to `src/features/jobs/data/mockJobs.ts`, so both use the single constant `Jobs.DummyJobs`.
- Job ids are unbounded integers. Timestamps and `postedTime` are opaque strings, and no date arithmetic is performed.

=== FILE: filter_bar.dfy ===
/**
  The row of quick-filter chips (src/features/jobs/components/FilterBar.tsx).
  The bar owns no state: it reads its parent's toggle record and, on a click,
  hands the parent a copy with one key flipped.
 */
module QuickFilters {

  /** The chips' keys, in display order: Jobs, Easy Apply, Date Posted, Experience. */
  const ChipKeys: seq<string> := ["jobs", "easy", "date", "exp"]

  /** `activeFilters[key]` as a condition: a missing key reads as off. */
  predicate IsOn(toggles: map<string, bool>, key: string) {
    key in toggles && toggles[key]
  }

  /**
    `handleFilterToggle`: a new record equal to the old one except that `key`
    holds the negation of what it read as, so a missing key is added as on.
   */
  function Toggle(toggles: map<string, bool>, key: string): (r: map<string, bool>)
    ensures r.Keys == toggles.Keys + {key}
    ensures IsOn(r, key) <==> !IsOn(toggles, key)
    ensures forall k :: k in toggles && k != key ==> r[k] == toggles[k]
  {
    toggles[key := !IsOn(toggles, key)]
  }

  /** Two clicks on a chip whose key is present restore the record exactly. */
  lemma ToggleTwiceRestores(toggles: map<string, bool>, key: string)
    requires key in toggles
    ensures Toggle(Toggle(toggles, key), key) == toggles
  {
    var r := Toggle(Toggle(toggles, key), key);
    assert r.Keys == toggles.Keys;
    assert r[key] == toggles[key];
  }

  /**
    Two clicks on a chip whose key is missing leave every chip reading as it
    did, but the record now holds the key, as false: it is not the record
    the bar started from.
   */
  lemma ToggleTwiceAbsent(toggles: map<string, bool>, key: string)
    requires key !in toggles
    ensures Toggle(Toggle(toggles, key), key) == toggles[key := false]
    ensures Toggle(Toggle(toggles, key), key) != toggles
    ensures forall k :: IsOn(Toggle(Toggle(toggles, key), key), k) <==> IsOn(toggles, k)
  {
    var r := Toggle(Toggle(toggles, key), key);
    assert key in r;
  }

  /** Clicks on two chips give the same record in either order. */
  lemma ToggleCommutes(toggles: map<string, bool>, a: string, b: string)
    ensures Toggle(Toggle(toggles, a), b) == Toggle(Toggle(toggles, b), a)
  {
    if a != b {
      var x := Toggle(Toggle(toggles, a), b);
      var y := Toggle(Toggle(toggles, b), a);
      assert x.Keys == y.Keys;
      forall k | k in x ensures x[k] == y[k] {
        if k == a {
          assert x[k] == !IsOn(toggles, a);
        } else if k == b {
          assert y[k] == !IsOn(toggles, b);
        }
      }
    }
  }
}

=== FILE: filter_codec.dfy ===
/**
  The detailed filter criteria of the filter sheet and their mapping to and from
  the page's URL query (src/features/jobs/components/FilterSheet.tsx).

  The query is a map from parameter names to values. The criteria record is
  decoded from it once, when the sheet mounts, and re-encoded into a brand-new
  query after every change, leaving out every "default" value. The same three
  sentinel strings mark a default for every text field, although each field
  decodes a missing key to its own default; the lemmas at the end of this
  module say exactly when a round trip through the query loses information.
 */
module FilterCodec {
  import opened Wrappers
  import opened Strings

  /** The `company` criterion: a name from the query, or the list the company panel applies. */
  datatype CompanyValue = Single(name: string) | Names(names: seq<string>)

  /** The sheet's `FilterState` record. */
  datatype Criteria = Criteria(
    datePosted: string,
    experienceLevel: string,
    company: CompanyValue,
    jobType: string,
    remote: string,
    easyApply: bool,
    hasVerifications: bool,
    location: string,
    industry: string,
    jobFunction: string,
    title: string,
    under10Applicants: bool,
    inYourNetwork: bool,
    sortBy: string)

  /** The names of the record's fields. */
  datatype Field =
    | DatePosted | ExperienceLevel | Company | JobType | Remote | EasyApply | HasVerifications
    | Location | Industry | JobFunction | Title | Under10Applicants | InYourNetwork | SortBy

  /** The value held in one field: a string, a boolean, or (company only) a list of strings. */
  datatype FieldValue = Str(s: string) | Bool(b: bool) | StrList(names: seq<string>)

  /** The fields in the order `Object.entries` visits them: the order of the record literal. */
  const Fields: seq<Field> := [
    DatePosted, ExperienceLevel, Company, JobType, Remote, EasyApply, HasVerifications,
    Location, Industry, JobFunction, Title, Under10Applicants, InYourNetwork, SortBy]

  /** The string values that the encoder treats as "not set", whatever the field. */
  const Sentinels: set<string> := {"Any", "Anytime", "Most relevant"}

  /** The query parameter name of a field (the record's property name). */
  function Key(f: Field): string {
    match f
    case DatePosted => "datePosted"
    case ExperienceLevel => "experienceLevel"
    case Company => "company"
    case JobType => "jobType"
    case Remote => "remote"
    case EasyApply => "easyApply"
    case HasVerifications => "hasVerifications"
    case Location => "location"
    case Industry => "industry"
    case JobFunction => "jobFunction"
    case Title => "title"
    case Under10Applicants => "under10Applicants"
    case InYourNetwork => "inYourNetwork"
    case SortBy => "sortBy"
  }

  /** The field a query parameter name belongs to, if any: the inverse of `Key`. */
  function KeyField(k: string): (r: Option<Field>)
    ensures r.Some? ==> Key(r.value) == k
    ensures forall f :: Key(f) == k ==> r == Some(f)
  {
    if k == "datePosted" then Some(DatePosted)
    else if k == "experienceLevel" then Some(ExperienceLevel)
    else if k == "company" then Some(Company)
    else if k == "jobType" then Some(JobType)
    else if k == "remote" then Some(Remote)
    else if k == "easyApply" then Some(EasyApply)
    else if k == "hasVerifications" then Some(HasVerifications)
    else if k == "location" then Some(Location)
    else if k == "industry" then Some(Industry)
    else if k == "jobFunction" then Some(JobFunction)
    else if k == "title" then Some(Title)
    else if k == "under10Applicants" then Some(Under10Applicants)
    else if k == "inYourNetwork" then Some(InYourNetwork)
    else if k == "sortBy" then Some(SortBy)
    else None
  }

  /** Different fields have different keys. */
  lemma KeysDiffer(f: Field, g: Field)
    requires f != g
    ensures Key(f) != Key(g)
  {
    assert KeyField(Key(f)) == Some(f);
  }

  /** The four switches of the sheet hold booleans; every other field holds text. */
  predicate IsFlag(f: Field) {
    f == EasyApply || f == HasVerifications || f == Under10Applicants || f == InYourNetwork
  }

  /** The value a missing or empty query parameter decodes to. */
  function DefaultText(f: Field): string {
    if f == DatePosted then "Anytime"
    else if f == SortBy then "Most relevant"
    else "Any"
  }

  /** The value of field `f` in `c`. */
  function Value(c: Criteria, f: Field): (v: FieldValue)
    ensures IsFlag(f) <==> v.Bool?
    ensures v.StrList? ==> f == Company
  {
    match f
    case DatePosted => Str(c.datePosted)
    case ExperienceLevel => Str(c.experienceLevel)
    case Company => (match c.company case Single(s) => Str(s) case Names(ns) => StrList(ns))
    case JobType => Str(c.jobType)
    case Remote => Str(c.remote)
    case EasyApply => Bool(c.easyApply)
    case HasVerifications => Bool(c.hasVerifications)
    case Location => Str(c.location)
    case Industry => Str(c.industry)
    case JobFunction => Str(c.jobFunction)
    case Title => Str(c.title)
    case Under10Applicants => Bool(c.under10Applicants)
    case InYourNetwork => Bool(c.inYourNetwork)
    case SortBy => Str(c.sortBy)
  }

  /** A value of the right kind for field `f`. */
  predicate Fits(f: Field, v: FieldValue) {
    (IsFlag(f) <==> v.Bool?) && (v.StrList? ==> f == Company)
  }

  /**
    `{ ...c, [Key(f)]: v }`: the single-field update of the switch handler and of
    every sub-panel's apply callback. Exactly field `f` changes.
   */
  function Set(c: Criteria, f: Field, v: FieldValue): (r: Criteria)
    requires Fits(f, v)
    ensures Value(r, f) == v
    ensures forall g :: g != f ==> Value(r, g) == Value(c, g)
  {
    match f
    case DatePosted => c.(datePosted := v.s)
    case ExperienceLevel => c.(experienceLevel := v.s)
    case Company => c.(company := if v.StrList? then Names(v.names) else Single(v.s))
    case JobType => c.(jobType := v.s)
    case Remote => c.(remote := v.s)
    case EasyApply => c.(easyApply := v.b)
    case HasVerifications => c.(hasVerifications := v.b)
    case Location => c.(location := v.s)
    case Industry => c.(industry := v.s)
    case JobFunction => c.(jobFunction := v.s)
    case Title => c.(title := v.s)
    case Under10Applicants => c.(under10Applicants := v.b)
    case InYourNetwork => c.(inYourNetwork := v.b)
    case SortBy => c.(sortBy := v.s)
  }

  /** Two records that agree on every field are the same record. */
  lemma FieldsDetermine(a: Criteria, b: Criteria)
    requires forall f :: Value(a, f) == Value(b, f)
    ensures a == b
  {
    assert Value(a, Company) == Value(b, Company);
    assert Value(a, DatePosted) == Value(b, DatePosted);
    assert Value(a, ExperienceLevel) == Value(b, ExperienceLevel);
    assert Value(a, JobType) == Value(b, JobType);
    assert Value(a, Remote) == Value(b, Remote);
    assert Value(a, EasyApply) == Value(b, EasyApply);
    assert Value(a, HasVerifications) == Value(b, HasVerifications);
    assert Value(a, Location) == Value(b, Location);
    assert Value(a, Industry) == Value(b, Industry);
    assert Value(a, JobFunction) == Value(b, JobFunction);
    assert Value(a, Title) == Value(b, Title);
    assert Value(a, Under10Applicants) == Value(b, Under10Applicants);
    assert Value(a, InYourNetwork) == Value(b, InYourNetwork);
    assert Value(a, SortBy) == Value(b, SortBy);
  }

  // ---------------------------------------------------------------------------
  // Decoding (the state initialiser)
  // ---------------------------------------------------------------------------

  /** `params.get(key) || default`: a missing or empty parameter gives the default. */
  function TextParam(query: map<string, string>, key: string, default: string): string {
    if key in query && query[key] != "" then query[key] else default
  }

  /** `params.get(key) === "true"`. */
  function FlagParam(query: map<string, string>, key: string): bool {
    key in query && query[key] == "true"
  }

  /**
    The record the sheet starts from, read from the page's query; unknown keys
    are ignored. Because of `||`, no decoded text is ever empty, and the
    company is always a single name.
   */
  function Decode(query: map<string, string>): (r: Criteria)
    ensures r.company.Single?
    ensures forall f :: Value(r, f).Str? ==> Value(r, f).s != ""
  {
    Criteria(
      TextParam(query, "datePosted", "Anytime"),
      TextParam(query, "experienceLevel", "Any"),
      Single(TextParam(query, "company", "Any")),
      TextParam(query, "jobType", "Any"),
      TextParam(query, "remote", "Any"),
      FlagParam(query, "easyApply"),
      FlagParam(query, "hasVerifications"),
      TextParam(query, "location", "Any"),
      TextParam(query, "industry", "Any"),
      TextParam(query, "jobFunction", "Any"),
      TextParam(query, "title", "Any"),
      FlagParam(query, "under10Applicants"),
      FlagParam(query, "inYourNetwork"),
      TextParam(query, "sortBy", "Most relevant"))
  }

  /**
    Decoding, field by field: a switch is on exactly when its parameter is the
    string "true"; a text field takes its parameter when that is present and
    non-empty, and otherwise its own default.
   */
  lemma DecodeField(query: map<string, string>, f: Field)
    ensures IsFlag(f) ==> Value(Decode(query), f) == Bool(Key(f) in query && query[Key(f)] == "true")
    ensures !IsFlag(f) ==>
      Value(Decode(query), f) == Str(if Key(f) in query && query[Key(f)] != "" then query[Key(f)] else DefaultText(f))
  {
  }

  /** The record `resetFilters` installs; it is also what an empty query decodes to. */
  const Defaults: Criteria := Criteria(
    "Anytime", "Any", Single("Any"), "Any", "Any", false, false,
    "Any", "Any", "Any", "Any", false, false, "Most relevant")

  /** The reset record holds every field's default: false switches and the decoded defaults. */
  lemma DefaultsAreDecodedEmptyQuery()
    ensures Decode(map[]) == Defaults
    ensures forall f :: Value(Defaults, f) == if IsFlag(f) then Bool(false) else Str(DefaultText(f))
  {
  }

  // ---------------------------------------------------------------------------
  // Encoding (the URL synchronisation effect)
  // ---------------------------------------------------------------------------

  /** What one `[key, val]` entry contributes to the query: nothing, or the string written. */
  function Written(v: FieldValue): Option<string> {
    match v
    case Bool(b) => if b then Some("true") else None
    case Str(s) => if s in Sentinels then None else Some(s)
    // an array is never strictly equal to a sentinel string; `set` writes its string conversion
    case StrList(ns) => Some(Join(ns))
  }

  /** The query built by visiting `fields` in order, each one setting its key when it writes something. */
  function EncodeFields(c: Criteria, fields: seq<Field>): map<string, string> {
    if fields == [] then map[]
    else
      var m := EncodeFields(c, fields[..|fields| - 1]);
      var f := fields[|fields| - 1];
      var w := Written(Value(c, f));
      if w.Some? then m[Key(f) := w.value] else m
  }

  /** After visiting `fields`, a field's key is present exactly when the field was visited and writes something. */
  lemma {:induction false} EncodeFieldsAt(c: Criteria, fields: seq<Field>, f: Field)
    ensures Key(f) in EncodeFields(c, fields) <==> f in fields && Written(Value(c, f)).Some?
    ensures Key(f) in EncodeFields(c, fields) ==> EncodeFields(c, fields)[Key(f)] == Written(Value(c, f)).value
  {
    if fields != [] {
      var init := fields[..|fields| - 1];
      var g := fields[|fields| - 1];
      EncodeFieldsAt(c, init, f);
      assert fields == init + [g];
      assert f in fields <==> f in init || f == g;
      if g != f {
        KeysDiffer(f, g);
      }
    }
  }

  /** Only the keys of visited fields are ever written. */
  lemma {:induction false} EncodeFieldsKeys(c: Criteria, fields: seq<Field>, k: string)
    requires k in EncodeFields(c, fields)
    ensures KeyField(k).Some? && KeyField(k).value in fields
  {
    var init := fields[..|fields| - 1];
    var g := fields[|fields| - 1];
    assert fields == init + [g];
    if k != Key(g) || Written(Value(c, g)).None? {
      EncodeFieldsKeys(c, init, k);
    }
  }

  /** Every field is visited. */
  lemma InFields(f: Field)
    ensures f in Fields
  {
    match f
    case DatePosted => assert Fields[0] == f;
    case ExperienceLevel => assert Fields[1] == f;
    case Company => assert Fields[2] == f;
    case JobType => assert Fields[3] == f;
    case Remote => assert Fields[4] == f;
    case EasyApply => assert Fields[5] == f;
    case HasVerifications => assert Fields[6] == f;
    case Location => assert Fields[7] == f;
    case Industry => assert Fields[8] == f;
    case JobFunction => assert Fields[9] == f;
    case Title => assert Fields[10] == f;
    case Under10Applicants => assert Fields[11] == f;
    case InYourNetwork => assert Fields[12] == f;
    case SortBy => assert Fields[13] == f;
  }

  /** Visiting all fields: each field's key carries what the field writes, and nothing else is written. */
  lemma EncodeFieldsComplete(c: Criteria)
    ensures forall f :: (Key(f) in EncodeFields(c, Fields) <==> Written(Value(c, f)).Some?)
    ensures forall f :: Key(f) in EncodeFields(c, Fields) ==> EncodeFields(c, Fields)[Key(f)] == Written(Value(c, f)).value
    ensures forall k :: k in EncodeFields(c, Fields) ==> KeyField(k).Some?
    ensures c.company.Names? ==> "company" in EncodeFields(c, Fields) && EncodeFields(c, Fields)["company"] == Join(c.company.names)
  {
    var r := EncodeFields(c, Fields);
    forall f ensures (Key(f) in r <==> Written(Value(c, f)).Some?)
      && (Key(f) in r ==> r[Key(f)] == Written(Value(c, f)).value)
    {
      InFields(f);
      EncodeFieldsAt(c, Fields, f);
    }
    forall k | k in r ensures KeyField(k).Some? {
      EncodeFieldsKeys(c, Fields, k);
    }
    if c.company.Names? {
      assert Value(c, Company) == StrList(c.company.names);
      assert Key(Company) == "company";
    }
  }

  /**
    The query the effect hands to `setSearchParams`, as a fresh map: a switch's
    key appears, with "true", exactly when the switch is on; a text field's key
    appears, with its value, exactly when the value is not one of the three
    sentinels; an applied company list is always written, comma-joined; no
    other key appears.
   */
  function Encoded(c: Criteria): (r: map<string, string>)
    ensures forall f :: IsFlag(f) ==> (Key(f) in r <==> Value(c, f) == Bool(true))
    ensures forall f :: IsFlag(f) && Key(f) in r ==> r[Key(f)] == "true"
    ensures forall f :: Value(c, f).Str? ==> (Key(f) in r <==> Value(c, f).s !in Sentinels)
    ensures forall f :: Value(c, f).Str? && Key(f) in r ==> r[Key(f)] == Value(c, f).s
    ensures c.company.Names? ==> "company" in r && r["company"] == Join(c.company.names)
    ensures forall k :: k in r ==> KeyField(k).Some?
  {
    EncodeFieldsComplete(c);
    EncodeFields(c, Fields)
  }

  /**
    The synchronisation effect as the source runs it: start from an empty
    parameter set and visit the record's entries in order, skipping false
    switches and sentinel strings.
   */
  method EncodeQuery(c: Criteria) returns (params: map<string, string>)
    ensures params == Encoded(c)
  {
    params := map[];
    for i := 0 to |Fields|
      invariant params == EncodeFields(c, Fields[..i])
    {
      var f := Fields[i];
      assert Fields[..i + 1] == Fields[..i] + [f];
      match Value(c, f)
      case Bool(b) =>
        if b {
          params := params[Key(f) := "true"];
        }
      case Str(s) =>
        if s != "Any" && s != "Anytime" && s != "Most relevant" {
          params := params[Key(f) := s];
        }
      case StrList(ns) =>
        params := params[Key(f) := Join(ns)];
    }
    assert Fields[..|Fields|] == Fields;
  }

  /** Encoding the reset record yields the empty query. */
  lemma EncodeDefaults()
    ensures Encoded(Defaults) == map[]
  {
    var r := Encoded(Defaults);
    DefaultsAreDecodedEmptyQuery();
    assert forall f :: Key(f) !in r;
    assert forall k :: k !in r;
  }

  /** Each field's key in the query carries exactly what the field writes. */
  lemma EncodedAt(c: Criteria, f: Field)
    ensures Key(f) in Encoded(c) <==> Written(Value(c, f)).Some?
    ensures Key(f) in Encoded(c) ==> Encoded(c)[Key(f)] == Written(Value(c, f)).value
  {
    EncodeFieldsComplete(c);
  }

  /** A single-field edit changes the encoded query at that field's key only. */
  lemma EditChangesOneKey(c: Criteria, f: Field, v: FieldValue, k: string)
    requires Fits(f, v)
    requires k != Key(f)
    ensures k in Encoded(Set(c, f, v)) <==> k in Encoded(c)
    ensures k in Encoded(c) ==> Encoded(Set(c, f, v))[k] == Encoded(c)[k]
  {
    var c' := Set(c, f, v);
    if k in Encoded(c) || k in Encoded(c') {
      var g := KeyField(k).value;
      assert Key(g) == k && g != f;
      assert Value(c', g) == Value(c, g);
      EncodedAt(c, g);
      EncodedAt(c', g);
    }
  }

  // ---------------------------------------------------------------------------
  // Round trips
  // ---------------------------------------------------------------------------

  /**
    A record survives the trip through the query when every text field is
    either its own default, or non-empty and not a sentinel, and the company is
    a single name rather than an applied list.
   */
  ghost predicate Recoverable(c: Criteria) {
    && c.company.Single?
    && forall f :: Value(c, f).Str? ==>
         Value(c, f).s == DefaultText(f) || (Value(c, f).s != "" && Value(c, f).s !in Sentinels)
  }

  /** Decoding the encoding of a recoverable record gives the record back. */
  lemma RoundTrip(c: Criteria)
    requires Recoverable(c)
    ensures Decode(Encoded(c)) == c
  {
    var q := Encoded(c);
    forall f ensures Value(Decode(q), f) == Value(c, f) {
      DecodeField(q, f);
      if !IsFlag(f) {
        assert Value(c, f).Str?;
        assert DefaultText(f) in Sentinels;
      }
    }
    FieldsDetermine(Decode(q), c);
  }

  /**
    The round trip is exact: it fails for every record that is not
    recoverable. A text field holding "" or another field's sentinel
    (experienceLevel "Anytime", datePosted "Any", ...) comes back as its own
    default, and an applied company list comes back as a single string.
   */
  lemma RoundTripExactly(c: Criteria)
    ensures Decode(Encoded(c)) == c <==> Recoverable(c)
  {
    if Recoverable(c) {
      RoundTrip(c);
    } else if c.company.Names? {
      assert Decode(Encoded(c)).company.Single?;
    } else {
      var f :| Value(c, f).Str? &&
        !(Value(c, f).s == DefaultText(f) || (Value(c, f).s != "" && Value(c, f).s !in Sentinels));
      DecodeField(Encoded(c), f);
      assert Value(Decode(Encoded(c)), f) == Str(DefaultText(f));
    }
  }

  /** experienceLevel "Anytime" (the experience panel's default) is dropped by the encoder and decodes to "Any". */
  lemma ExperienceAnytimeComesBackAny(c: Criteria)
    requires c.experienceLevel == "Anytime"
    ensures "experienceLevel" !in Encoded(c)
    ensures Decode(Encoded(c)).experienceLevel == "Any"
  {
    assert Value(c, ExperienceLevel) == Str("Anytime");
    DecodeField(Encoded(c), ExperienceLevel);
  }

  /** An applied company list is written comma-joined and decodes to that single string, or to "Any" when the join is empty. */
  lemma CompanyListComesBackJoined(c: Criteria)
    requires c.company.Names?
    ensures Decode(Encoded(c)).company ==
      Single(if Join(c.company.names) == "" then "Any" else Join(c.company.names))
  {
  }

  /**
    Re-encoding what was decoded (the effect's first run after mount) keeps a
    subset of the original query: known keys whose value survives, with the
    same value; every unknown key and every default-valued key is dropped.
   */
  lemma NormalisedQueryIsSubmap(query: map<string, string>, k: string)
    requires k in Encoded(Decode(query))
    ensures k in query && Encoded(Decode(query))[k] == query[k]
  {
    var f := KeyField(k).value;
    DecodeField(query, f);
    if !IsFlag(f) {
      assert DefaultText(f) in Sentinels;
    }
  }

  // ---------------------------------------------------------------------------
  // The summary handed to onFiltersChange
  // ---------------------------------------------------------------------------

  /** The coarse flags the sheet reports when saved. */
  function Summary(c: Criteria): (r: map<string, bool>)
    ensures r.Keys == {"jobs", "easyApply", "datePosted", "experienceLevel"}
    ensures r["jobs"]
    ensures r["easyApply"] <==> Value(c, EasyApply) == Bool(true)
    ensures r["datePosted"] <==> Value(c, DatePosted) != Str(DefaultText(DatePosted))
    ensures r["experienceLevel"] <==> Value(c, ExperienceLevel) != Str(DefaultText(ExperienceLevel))
  {
    map["jobs" := true,
        "easyApply" := c.easyApply,
        "datePosted" := c.datePosted != "Anytime",
        "experienceLevel" := c.experienceLevel != "Any"]
  }

  /**
    The summary and the query disagree about date and experience exactly when
    the field holds another field's sentinel: the summary compares with one
    string per field, the encoder with all three.
   */
  lemma SummaryDisagreesWithQuery(c: Criteria)
    ensures Summary(c)["datePosted"] != ("datePosted" in Encoded(c))
      <==> c.datePosted == "Any" || c.datePosted == "Most relevant"
    ensures Summary(c)["experienceLevel"] != ("experienceLevel" in Encoded(c))
      <==> c.experienceLevel == "Anytime" || c.experienceLevel == "Most relevant"
  {
    assert Value(c, DatePosted) == Str(c.datePosted);
    assert Value(c, ExperienceLevel) == Str(c.experienceLevel);
  }
}

=== FILE: filter_sheet.dfy ===
/**
  The filter sheet component (src/features/jobs/components/FilterSheet.tsx):
  the criteria record it edits, the page query it keeps in step with that
  record, and the panel it shows (the main list or one criterion's panel).
 */
module FilterSheets {
  import opened Wrappers
  import opened FilterCodec

  /** `activePanel`: the main list, or the panel opened from a link row by its key. */
  datatype Panel = Main | Open(key: string)

  /** The criteria reached from a link row of the main list (every text field but sortBy). */
  predicate IsLink(f: Field) {
    !IsFlag(f) && f != SortBy
  }

  /** The criteria that have a panel of their own; the other link rows open an empty panel. */
  predicate HasPanel(f: Field) {
    f == DatePosted || f == ExperienceLevel || f == Company || f == JobType || f == Remote
  }

  /** Saved preferences as the server returns them; `filters` may hold any subset of the fields. */
  datatype Preferences = Preferences(success: bool, filters: Option<map<Field, FieldValue>>)

  /** Every saved value has the type of its field. */
  predicate WellTyped(saved: map<Field, FieldValue>) {
    forall f :: f in saved ==> Fits(f, saved[f])
  }

  /** The value field `f` takes in `{ ...c, ...saved }`. */
  function Picked(c: Criteria, saved: map<Field, FieldValue>, f: Field): (v: FieldValue)
    requires WellTyped(saved)
    ensures Fits(f, v)
    ensures f in saved ==> v == saved[f]
    ensures f !in saved ==> v == Value(c, f)
  {
    if f in saved then saved[f] else Value(c, f)
  }

  /** The saved entries among `fields` copied over `c`, one field at a time. */
  function MergeFields(c: Criteria, saved: map<Field, FieldValue>, fields: seq<Field>): Criteria
    requires WellTyped(saved)
    decreases |fields|
  {
    if fields == [] then c
    else if fields[0] in saved then MergeFields(Set(c, fields[0], saved[fields[0]]), saved, fields[1..])
    else MergeFields(c, saved, fields[1..])
  }

  /** After copying the entries among `fields`, a field holds its saved value if it was copied, else its old one. */
  lemma {:induction false} MergeFieldsAt(c: Criteria, saved: map<Field, FieldValue>, fields: seq<Field>, f: Field)
    requires WellTyped(saved)
    ensures Value(MergeFields(c, saved, fields), f) == if f in fields && f in saved then saved[f] else Value(c, f)
    decreases |fields|
  {
    if fields != [] {
      var g := fields[0];
      var c1 := if g in saved then Set(c, g, saved[g]) else c;
      assert MergeFields(c, saved, fields) == MergeFields(c1, saved, fields[1..]);
      MergeFieldsAt(c1, saved, fields[1..], f);
      assert f in fields <==> f == g || f in fields[1..];
    }
  }

  /** Copying the entries of every field. */
  lemma MergeComplete(c: Criteria, saved: map<Field, FieldValue>)
    requires WellTyped(saved)
    ensures forall f :: Value(MergeFields(c, saved, Fields), f) == Picked(c, saved, f)
  {
    forall f ensures Value(MergeFields(c, saved, Fields), f) == Picked(c, saved, f) {
      InFields(f);
      MergeFieldsAt(c, saved, Fields, f);
    }
  }

  /** `{ ...c, ...saved }`: saved fields override, the others keep their value. */
  function Merge(c: Criteria, saved: map<Field, FieldValue>): (r: Criteria)
    requires WellTyped(saved)
    ensures forall f :: Value(r, f) == Picked(c, saved, f)
  {
    MergeComplete(c, saved);
    MergeFields(c, saved, Fields)
  }

  /** Merging nothing leaves the record as it was. */
  lemma MergeNothing(c: Criteria)
    ensures Merge(c, map[]) == c
  {
    FieldsDetermine(Merge(c, map[]), c);
  }

  /** Loading the same preferences a second time changes nothing more. */
  lemma MergeIdempotent(c: Criteria, saved: map<Field, FieldValue>)
    requires WellTyped(saved)
    ensures Merge(Merge(c, saved), saved) == Merge(c, saved)
  {
    FieldsDetermine(Merge(Merge(c, saved), saved), Merge(c, saved));
  }

  /** A full set of saved preferences replaces the record whatever it was. */
  lemma MergeEverything(c: Criteria, d: Criteria)
    ensures var all := map f: Field | true :: Value(d, f);
      WellTyped(all) && Merge(c, all) == d
  {
    var all := map f: Field | true :: Value(d, f);
    FieldsDetermine(Merge(c, all), d);
  }

  /** The record after a preferences answer. */
  function Loaded(c: Criteria, response: Option<Preferences>): (r: Criteria)
    requires response.Some? && response.value.filters.Some? ==> WellTyped(response.value.filters.value)
    ensures !(response.Some? && response.value.success && response.value.filters.Some?) ==> r == c
    ensures response.Some? && response.value.success && response.value.filters.Some? ==>
      forall f :: Value(r, f) == if f in response.value.filters.value then response.value.filters.value[f] else Value(c, f)
  {
    match response
    case Some(Preferences(true, Some(saved))) => Merge(c, saved)
    case _ => c
  }

  class FilterSheet {
    /** `filterState`. */
    var criteria: Criteria
    /** The page's URL query, which the synchronisation effect rewrites. */
    var query: map<string, string>
    var panel: Panel

    /** After each handler the effect has run: the query is the encoding of the record. */
    ghost predicate Valid()
      reads this
    {
      query == Encoded(criteria)
    }

    /**
      Mounting: the record is decoded from the page's query, the main list is
      shown, and the effect then replaces the query by the record's encoding.
     */
    constructor (urlQuery: map<string, string>)
      ensures Valid()
      ensures criteria == Decode(urlQuery) && panel == Main
    {
      var decoded := Decode(urlQuery);
      var synced := EncodeQuery(decoded);
      criteria, panel, query := decoded, Main, synced;
    }

    /**
      Opening the sheet loads saved preferences: a successful answer with
      filters is merged over the record; a failed request (`None`) or any
      other answer keeps the record.
     */
    method LoadPreferences(response: Option<Preferences>)
      requires Valid()
      requires response.Some? && response.value.filters.Some? ==> WellTyped(response.value.filters.value)
      modifies this
      ensures Valid() && panel == old(panel)
      ensures criteria == Loaded(old(criteria), response)
    {
      var next := Loaded(criteria, response);
      var synced := EncodeQuery(next);
      criteria, query := next, synced;
    }

    /** Flipping one of the four switches of the main list. */
    method SwitchChange(f: Field, checked: bool)
      requires Valid() && IsFlag(f)
      modifies this
      ensures Valid() && panel == old(panel)
      ensures criteria == Set(old(criteria), f, Bool(checked))
    {
      criteria := Set(criteria, f, Bool(checked));
      query := EncodeQuery(criteria);
    }

    /** Clicking a link row shows the panel named by the row's key. */
    method OpenPanel(f: Field)
      requires Valid() && panel == Main && IsLink(f)
      modifies this
      ensures Valid() && criteria == old(criteria)
      ensures panel == Open(Key(f))
    {
      panel := Open(Key(f));
    }

    /** The Back button of the header, and every panel's `onClose`. */
    method Back()
      requires Valid()
      modifies this
      ensures Valid() && criteria == old(criteria)
      ensures panel == Main
    {
      panel := Main;
    }

    /**
      A criterion panel's `onApply(value)`: exactly that criterion takes the
      value, and the main list is shown again.
     */
    method PanelApply(f: Field, value: FieldValue)
      requires Valid() && HasPanel(f) && Fits(f, value)
      modifies this
      ensures Valid()
      ensures criteria == Set(old(criteria), f, value)
      ensures panel == Main
    {
      criteria := Set(criteria, f, value);
      panel := Main;
      query := EncodeQuery(criteria);
    }

    /** The Reset button: every criterion returns to its default, which empties the query. */
    method Reset()
      requires Valid()
      modifies this
      ensures Valid() && panel == old(panel)
      ensures criteria == Defaults && query == map[]
    {
      criteria := Defaults;
      query := EncodeQuery(criteria);
      EncodeDefaults();
    }

    /**
      The Apply button: when the record was stored (`stored`), the summary is
      handed to `onFiltersChange` and the sheet asks to be closed; when the
      request failed nothing is reported and the sheet stays open.
     */
    method Save(stored: bool) returns (summary: Option<map<string, bool>>, closes: bool)
      ensures summary.Some? <==> stored
      ensures closes <==> stored
      ensures stored ==> summary.value == Summary(criteria)
    {
      if stored {
        summary := Some(Summary(criteria));
        closes := true;
      } else {
        summary := None;
        closes := false;
      }
    }
  }
}

=== FILE: job_page.dfy ===
/**
  The jobs page (src/pages/JobPage.tsx): it holds the quick-filter toggles the
  chip bar shows, the detailed criteria it hands to the job list, and whether
  the filter sheet is open, and it wires the bar's and the sheet's callbacks
  into that state.
 */
module JobPages {
  import opened FilterCodec
  import opened QuickFilters
  import opened Jobs

  /** The four keys of the page's `FilterToggles` record. */
  const ToggleKeys: set<string> := {"jobs", "easyApply", "datePosted", "experienceLevel"}

  /** The toggles the page starts with: only `jobs` is on. */
  const InitialToggles: map<string, bool> :=
    map["jobs" := true, "easyApply" := false, "datePosted" := false, "experienceLevel" := false]

  /**
    `handleFilterSheetChange`: the four page keys are overwritten from the
    keys `job`, `easy`, `date` and `exp` of what the sheet reported, each
    missing or false one giving false; every other key is kept.
   */
  function FromSheet(prev: map<string, bool>, filters: map<string, bool>): (r: map<string, bool>)
    ensures r.Keys == prev.Keys + ToggleKeys
    ensures r["jobs"] == IsOn(filters, "job")
    ensures r["easyApply"] == IsOn(filters, "easy")
    ensures r["datePosted"] == IsOn(filters, "date")
    ensures r["experienceLevel"] == IsOn(filters, "exp")
    ensures forall k :: k in prev && k !in ToggleKeys ==> r[k] == prev[k]
  {
    prev["jobs" := IsOn(filters, "job")]["easyApply" := IsOn(filters, "easy")]
        ["datePosted" := IsOn(filters, "date")]["experienceLevel" := IsOn(filters, "exp")]
  }

  /**
    Whatever the sheet's criteria, its summary (keys `jobs`, `easyApply`,
    `datePosted`, `experienceLevel`) shares no key with what the page reads
    from it, so applying the sheet turns all four toggles off, `jobs`
    included.
   */
  lemma SheetSummaryClearsToggles(prev: map<string, bool>, c: Criteria)
    ensures forall k :: k in ToggleKeys ==> !FromSheet(prev, Summary(c))[k]
  {
    var s := Summary(c);
    assert s.Keys == ToggleKeys;
    assert "job" !in s && "easy" !in s && "date" !in s && "exp" !in s;
  }

  /**
    A chip click never touches the page's `easyApply` key (the chips are keyed
    `jobs`, `easy`, `date`, `exp`), so the easy-apply synchronisation of the bar
    handler only fires when the two were already out of step.
   */
  lemma ChipsLeaveEasyApply(toggles: map<string, bool>, key: string)
    requires key in ChipKeys
    ensures "easyApply" in Toggle(toggles, key) <==> "easyApply" in toggles
    ensures "easyApply" in toggles ==> Toggle(toggles, key)["easyApply"] == toggles["easyApply"]
  {
    assert key != "easyApply";
  }

  /** A criterion's value as a request parameter: text, boolean, or an array of names. */
  function AsParam(v: FieldValue): (p: ParamValue)
    ensures v.Str? <==> p.Text?
    ensures v.Bool? <==> p.Flag?
    ensures v.StrList? <==> p.Texts?
    ensures v.Str? ==> p == Text(v.s)
    ensures v.Bool? ==> p == Flag(v.b)
    ensures v.StrList? ==> p == Texts(v.names)
  {
    match v
    case Str(s) => Text(s)
    case Bool(b) => Flag(b)
    case StrList(names) => Texts(names)
  }

  /** The criteria record as the object the job list hands to the job hook: one entry per criterion, under its key. */
  function CriteriaParams(c: Criteria): (r: map<string, ParamValue>)
    ensures forall f :: Key(f) in r && r[Key(f)] == AsParam(Value(c, f))
    ensures forall k :: k in r ==> KeyField(k).Some?
  {
    map k | k in KeySet() :: AsParam(Value(c, KeyField(k).value))
  }

  /** The fourteen keys of the criteria record. */
  function KeySet(): (ks: set<string>)
    ensures forall f :: Key(f) in ks
    ensures forall k :: k in ks ==> KeyField(k).Some?
  {
    set f: Field | f in Fields :: Key(f)
  }

  /**
    The job list's request: the page's search text is always empty, and its
    filters are the whole criteria record, so the record's own `location`
    overrides "Kerala" and every criterion is sent, none as `search`.
   */
  lemma JobListRequest(c: Criteria)
    ensures var r := SearchParams("", CriteriaParams(c));
      && "search" !in r
      && r["location"] == Text(c.location)
      && (forall f :: r[Key(f)] == AsParam(Value(c, f)))
  {
    var p := CriteriaParams(c);
    NoSearchKey();
    RecordSpread(p);
    assert p[Key(Location)] == AsParam(Value(c, Location));
  }

  /** With no search text, a filter record without a `search` key is sent entry by entry, and nothing is added but `location`. */
  lemma RecordSpread(p: map<string, ParamValue>)
    requires "search" !in p
    ensures "search" !in SearchParams("", p)
    ensures forall k :: k in p ==> SearchParams("", p)[k] == p[k]
  {
  }

  lemma NoSearchKey()
    ensures KeyField("search").None?
  {
  }

  class JobPage {
    /** `activeFilters`, the record the chip bar reads. */
    var toggles: map<string, bool>
    /** `filterSheetStates`, the criteria handed to the job list. */
    var criteria: Criteria
    /** `isFilterSheetOpen`. */
    var sheetOpen: bool

    /**
      What every sequence of user actions keeps: `easyApply` is present and
      off, and the criteria are still the defaults.
     */
    ghost predicate Reachable()
      reads this
    {
      "easyApply" in toggles && !toggles["easyApply"] && criteria == Defaults
    }

    /**
      The parameters the page's job list sends. On every reachable page the
      criteria are the defaults, so the request asks for location "Any"
      rather than "Kerala", and sends every switch as false.
     */
    function ListRequest(): (r: map<string, ParamValue>)
      reads this
      ensures Reachable() ==> "location" in r && r["location"] == Text("Any") && "search" !in r
      ensures Reachable() ==> forall f :: IsFlag(f) ==> Key(f) in r && r[Key(f)] == Flag(false)
    {
      JobListRequest(criteria);
      DefaultsAreDecodedEmptyQuery();
      SearchParams("", CriteriaParams(criteria))
    }

    constructor ()
      ensures Reachable()
      ensures toggles == InitialToggles && criteria == Defaults && !sheetOpen
    {
      toggles := InitialToggles;
      criteria := Defaults;
      sheetOpen := false;
    }

    /**
      `handleFilterBarChange`: the bar's record replaces the toggles, and the
      criteria's `easyApply` follows the record's `easyApply` (the update is
      skipped when they already agree, which gives the same record).
     */
    method BarChange(filters: map<string, bool>)
      requires "easyApply" in filters
      modifies this
      ensures toggles == filters
      ensures criteria == Set(old(criteria), EasyApply, Bool(filters["easyApply"]))
      ensures sheetOpen == old(sheetOpen)
    {
      toggles := filters;
      if filters["easyApply"] != criteria.easyApply {
        criteria := criteria.(easyApply := filters["easyApply"]);
      }
    }

    /** A click on one of the bar's chips: the bar flips the chip's key and reports to `BarChange`. */
    method ClickChip(key: string)
      requires key in ChipKeys && Reachable()
      modifies this
      ensures Reachable()
      ensures toggles == Toggle(old(toggles), key)
      ensures criteria == old(criteria) && sheetOpen == old(sheetOpen)
    {
      ChipsLeaveEasyApply(toggles, key);
      BarChange(Toggle(toggles, key));
    }

    /** `handleFilterSheetChange`, with what the sheet reported; the criteria are left alone. */
    method SheetChange(filters: map<string, bool>)
      modifies this
      ensures toggles == FromSheet(old(toggles), filters)
      ensures criteria == old(criteria) && sheetOpen == old(sheetOpen)
      ensures old(Reachable()) && !IsOn(filters, "easy") ==> Reachable()
    {
      toggles := FromSheet(toggles, filters);
    }

    /** The funnel icon opens the sheet; the sheet's `onClose` closes it. */
    method SetSheetOpen(open: bool)
      modifies this
      ensures sheetOpen == open && toggles == old(toggles) && criteria == old(criteria)
    {
      sheetOpen := open;
    }
  }
}

=== FILE: job_results.dfy ===
/**
  The search results page (src/pages/JobResults.tsx): its own job list,
  quick-filter toggles keyed like the chip bar, and the filter sheet; every
  change of the toggles refetches the list.
 */
module JobResultsPages {
  import opened Wrappers
  import opened Jobs
  import opened QuickFilters
  import opened FilterCodec

  /** The toggles the page starts with: the Jobs and Easy Apply chips are on. */
  const InitialToggles: map<string, bool> := map["jobs" := true, "easy" := true, "date" := false, "exp" := false]

  /** What the results area shows. */
  datatype ResultsView = Loading | ErrorText(message: string) | NoJobs | Cards(jobs: seq<Job>)

  /** An error is shown only when it is set and non-empty: `error ? … : …` tests truthiness. */
  predicate ShowsError(error: Option<string>) {
    error.Some? && error.value != ""
  }

  /** The results area: loading, then a (non-empty) error, then "No jobs found", then one card per job. */
  function View(loading: bool, error: Option<string>, jobs: seq<Job>): (v: ResultsView)
    ensures v == NoJobs ==> !loading && !ShowsError(error) && jobs == []
    ensures v.Cards? ==> v.jobs == jobs && jobs != []
    ensures loading ==> v == Loading
    ensures !loading && ShowsError(error) ==> v == ErrorText(error.value)
    ensures !loading && !ShowsError(error) && jobs == [] ==> v == NoJobs
    ensures !loading && !ShowsError(error) && jobs != [] ==> v == Cards(jobs)
  {
    if loading then Loading
    else if ShowsError(error) then ErrorText(error.value)
    else if jobs == [] then NoJobs
    else Cards(jobs)
  }

  /**
    After a request the page never shows an error: it shows the built-in
    listings when the request failed, and "No jobs found" only when the server
    succeeded with no jobs.
   */
  lemma ViewAfterFetch(outcome: Outcome)
    ensures !View(false, None, Listed(outcome, DummyJobs)).ErrorText?
    ensures !Succeeded(outcome) ==> View(false, None, Listed(outcome, DummyJobs)) == Cards(DummyJobs)
    ensures View(false, None, Listed(outcome, DummyJobs)) == NoJobs <==>
      Succeeded(outcome) && (outcome.jobs.None? || outcome.jobs.value == [])
  {
    EmptyOnlyWhenServerSaysSo(outcome, DummyJobs);
  }

  /**
    Once the filter sheet has reported, the toggles are its summary: the Jobs
    chip reads on, and the other three chips read off whatever the criteria,
    since the summary is keyed `easyApply`, `datePosted`, `experienceLevel`.
   */
  lemma SheetSummaryHidesChips(c: Criteria)
    ensures IsOn(Summary(c), "jobs")
    ensures forall k :: k in ChipKeys && k != "jobs" ==> !IsOn(Summary(c), k)
  {
    assert Summary(c).Keys == {"jobs", "easyApply", "datePosted", "experienceLevel"};
  }

  class JobResultsPage {
    var jobs: seq<Job>
    var loading: bool
    /** Cleared before every request and never filled. */
    var error: Option<string>
    /** The page never changes its search text. */
    const searchQuery: string
    var toggles: map<string, bool>
    var sheetOpen: bool

    constructor ()
      ensures jobs == [] && loading && error == None && searchQuery == ""
      ensures toggles == InitialToggles && !sheetOpen
    {
      jobs, loading, error := [], true, None;
      searchQuery := "";
      toggles, sheetOpen := InitialToggles, false;
    }

    /** `fetchJobs(query, filters)`. */
    method Fetch(query: string, filters: map<string, bool>, outcome: Outcome) returns (params: map<string, ParamValue>)
      modifies this
      ensures params == SearchParams(query, Flags(filters))
      ensures jobs == Listed(outcome, DummyJobs) && !loading && error == None
      ensures toggles == old(toggles) && sheetOpen == old(sheetOpen)
    {
      loading, error := true, None;
      params := SearchParams(query, Flags(filters));
      if Succeeded(outcome) {
        jobs := outcome.jobs.GetOr([]);
      } else {
        jobs := DummyJobs;
      }
      loading := false;
    }

    /** The mount effect: a fetch with no search text and no filters, so only the default location is sent. */
    method Mount(outcome: Outcome) returns (params: map<string, ParamValue>)
      modifies this
      ensures params == map["location" := Text("Kerala")]
      ensures jobs == Listed(outcome, DummyJobs) && !loading && error == None
      ensures toggles == old(toggles) && sheetOpen == old(sheetOpen)
    {
      params := Fetch("", map[], outcome);
    }

    /**
      `handleFiltersChange`, called by the chip bar and by the filter sheet:
      the new toggles replace the old ones and are sent with the page's
      search text.
     */
    method FiltersChange(filters: map<string, bool>, outcome: Outcome) returns (params: map<string, ParamValue>)
      modifies this
      ensures toggles == filters
      ensures params == SearchParams(searchQuery, Flags(filters))
      ensures jobs == Listed(outcome, DummyJobs) && !loading && error == None
      ensures sheetOpen == old(sheetOpen)
    {
      toggles := filters;
      params := Fetch(searchQuery, filters, outcome);
    }

    /** A click on a chip: the bar flips the chip's key and reports to `FiltersChange`. */
    method ClickChip(key: string, outcome: Outcome) returns (params: map<string, ParamValue>)
      requires key in ChipKeys
      modifies this
      ensures toggles == Toggle(old(toggles), key)
      ensures params == SearchParams(searchQuery, Flags(toggles))
      ensures jobs == Listed(outcome, DummyJobs) && !loading && error == None
      ensures sheetOpen == old(sheetOpen)
    {
      params := FiltersChange(Toggle(toggles, key), outcome);
    }

    /** The funnel icon opens the sheet; the sheet's `onClose` closes it. */
    method SetSheetOpen(open: bool)
      modifies this
      ensures sheetOpen == open && toggles == old(toggles) && jobs == old(jobs)
      ensures loading == old(loading) && error == old(error)
    {
      sheetOpen := open;
    }

    /** `handleJobDismiss`: the job leaves the list only when the server acknowledged it. */
    method Dismiss(id: int, acknowledged: bool)
      modifies this
      ensures jobs == if acknowledged then Dismissed(old(jobs), id) else old(jobs)
      ensures toggles == old(toggles) && loading == old(loading) && error == old(error)
      ensures sheetOpen == old(sheetOpen)
    {
      if acknowledged {
        jobs := Dismissed(jobs, id);
      }
    }
  }
}

=== FILE: jobs.dfy ===
/**
  Job listings (src/features/jobs/types.ts) and what the job lists do with
  them: the request parameters of a job search, the list shown after a
  request, with its built-in fallback listings, and the removal of a
  dismissed job.
 */
module Jobs {
  import opened Wrappers
  import opened Lists

  datatype WorkArrangement = RemoteWork | Onsite | Hybrid
  datatype EmploymentType = FullTime | PartTime | ContractWork | InternshipWork
  datatype Seniority = Entry | Mid | Senior

  /** A job listing; the optional properties are `None` when absent. */
  datatype Job = Job(
    id: int,
    title: string,
    company: string,
    location: string,
    activelyReviewing: bool,
    viewed: bool,
    earlyApplicant: bool,
    easyApply: bool,
    promoted: Option<bool>,
    verified: Option<bool>,
    applicants: Option<int>,
    inYourNetwork: Option<bool>,
    remote: Option<WorkArrangement>,
    employment: Option<EmploymentType>,
    experienceLevel: Option<Seniority>,
    postedTime: string)

  /** A listing with only the properties the built-in listings set. */
  function Listing(id: int, title: string, company: string, location: string,
                   activelyReviewing: bool, viewed: bool, earlyApplicant: bool, easyApply: bool,
                   promoted: Option<bool>, postedTime: string): Job
  {
    Job(id, title, company, location, activelyReviewing, viewed, earlyApplicant, easyApply,
        promoted, None, None, None, None, None, None, postedTime)
  }

  /** The listings a job search shows when the server cannot be used. */
  const DummyJobs: seq<Job> := [
    Listing(1, "Frontend Developer", "Tech Corp", "Kochi, Kerala", true, false, true, true, Some(true), "2 days ago"),
    Listing(2, "Backend Engineer", "Innovate Solutions", "Thiruvananthapuram, Kerala", true, false, false, false, None, "5 days ago"),
    Listing(3, "UI/UX Designer", "Creative Minds", "Kozhikode, Kerala", true, true, true, true, None, "")
  ]

  /** The listings the recommendations show when the server cannot be used. */
  const TopPicksFallback: seq<Job> := [
    Listing(1, "Frontend Developer", "Tech Solutions", "Kochi, Kerala", true, false, true, true, Some(true), ""),
    Listing(2, "Backend Engineer", "Innovatech", "Thiruvananthapuram, Kerala", false, true, false, true, None, ""),
    Listing(3, "UI/UX Designer", "PixelCraft", "Kozhikode, Kerala", true, true, true, false, None, "")
  ]

  /** How a job request ended: it threw (network or server error), or it was answered. */
  datatype Outcome = Failed | Answered(success: bool, jobs: Option<seq<Job>>)

  predicate Succeeded(outcome: Outcome) {
    outcome.Answered? && outcome.success
  }

  /**
    The list a request leaves: on success the returned jobs, or the empty list
    when none were returned; on failure, or an answer without success (which
    the source rethrows), the fallback listings.
   */
  function Listed(outcome: Outcome, fallback: seq<Job>): (r: seq<Job>)
    ensures !Succeeded(outcome) ==> r == fallback
    ensures Succeeded(outcome) && outcome.jobs.Some? ==> r == outcome.jobs.value
    ensures Succeeded(outcome) && outcome.jobs.None? ==> r == []
  {
    if Succeeded(outcome) then outcome.jobs.GetOr([]) else fallback
  }

  /** An empty list after a request means the server succeeded and returned no jobs. */
  lemma EmptyOnlyWhenServerSaysSo(outcome: Outcome, fallback: seq<Job>)
    requires fallback != []
    ensures Listed(outcome, fallback) == [] <==>
      Succeeded(outcome) && (outcome.jobs.None? || outcome.jobs.value == [])
  {
  }

  /** `prev.filter(job => job.id !== jobId)`. */
  function Dismissed(jobs: seq<Job>, id: int): (r: seq<Job>)
    ensures |r| <= |jobs|
    ensures forall j :: j in r <==> j in jobs && j.id != id
    ensures multiset(r) <= multiset(jobs)
    ensures forall j :: multiset(r)[j] == if j.id != id then multiset(jobs)[j] else 0
  {
    Filter(jobs, (j: Job) => j.id != id)
  }

  /** Dismissing keeps the remaining listings in their order. */
  lemma DismissKeepsOrder(jobs: seq<Job>, id: int)
    ensures IsSubsequence(Dismissed(jobs, id), jobs)
  {
    FilterIsSubsequence(jobs, (j: Job) => j.id != id);
  }

  /** Dismissing an id no listing has changes nothing, and dismissing twice is dismissing once. */
  lemma DismissIdempotent(jobs: seq<Job>, id: int)
    ensures (forall j :: j in jobs ==> j.id != id) ==> Dismissed(jobs, id) == jobs
    ensures Dismissed(Dismissed(jobs, id), id) == Dismissed(jobs, id)
  {
    if forall j :: j in jobs ==> j.id != id {
      FilterKeepsAll(jobs, (j: Job) => j.id != id);
    }
    FilterIdempotent(jobs, (j: Job) => j.id != id);
  }

  /** The list after dismissing each of `ids` in turn: exactly the listings whose id is none of them. */
  function DismissedAll(jobs: seq<Job>, ids: seq<int>): (r: seq<Job>)
    ensures forall j :: j in r <==> j in jobs && j.id !in ids
    decreases |ids|
  {
    if ids == [] then jobs
    else
      var rest := DismissedAll(Dismissed(jobs, ids[0]), ids[1..]);
      assert forall i :: i in ids <==> i == ids[0] || i in ids[1..];
      rest
  }

  /** Dismissing `ids` empties the list exactly when every listing's id is among them. */
  lemma DismissedAllEmpty(jobs: seq<Job>, ids: seq<int>)
    ensures DismissedAll(jobs, ids) == [] <==> forall j :: j in jobs ==> j.id in ids
  {
    var r := DismissedAll(jobs, ids);
    if r != [] {
      assert r[0] in r;
    }
  }

  /** A request parameter: axios leaves parameters that are `undefined` out of the request. */
  datatype ParamValue = Text(s: string) | Flag(b: bool) | Number(n: int) | Texts(items: seq<string>)

  /** A record of toggles as request parameters: each key sent as its boolean. */
  function Flags(toggles: map<string, bool>): (r: map<string, ParamValue>)
    ensures r.Keys == toggles.Keys
    ensures forall k :: k in toggles ==> r[k] == Flag(toggles[k])
  {
    map k | k in toggles :: Flag(toggles[k])
  }

  /**
    The parameters of a job search: `{ location: "Kerala", ...filters }`,
    plus `search` when the search text is not empty. A filter named
    `location` overrides the default location, and a non-empty search text
    overrides a filter named `search`. The filters are whatever record the
    caller passes: toggles from the results page, the whole criteria record
    from the jobs page.
   */
  function SearchParams(query: string, filters: map<string, ParamValue>): (r: map<string, ParamValue>)
    ensures r.Keys == filters.Keys + {"location"} + (if query != "" then {"search"} else {})
    ensures query != "" ==> r["search"] == Text(query)
    ensures forall k :: k in filters && !(k == "search" && query != "") ==> r[k] == filters[k]
    ensures "location" !in filters ==> r["location"] == Text("Kerala")
  {
    var spread := map["location" := Text("Kerala")] + filters;
    if query != "" then spread["search" := Text(query)] else spread
  }
}

=== FILE: lists.dfy ===
/**
  Array operations the components use on their lists: `Array.prototype.filter`,
  `Array.prototype.includes` (Dafny's `in`) and what "keeps the order" means.
 */
module Lists {

  /** `s.filter(keep)`: the elements of `s` that `keep` accepts, in their original order. */
  function Filter<T(!new)>(s: seq<T>, keep: T -> bool): (r: seq<T>)
    ensures |r| <= |s|
    ensures forall x :: x in r <==> x in s && keep(x)
    ensures multiset(r) <= multiset(s)
    ensures forall x :: multiset(r)[x] == if keep(x) then multiset(s)[x] else 0
  {
    if s == [] then []
    else
      assert s == [s[0]] + s[1..];
      if keep(s[0]) then [s[0]] + Filter(s[1..], keep)
    else Filter(s[1..], keep)
  }

  /** `a` is obtained from `b` by deleting elements: the order of what is left is unchanged. */
  ghost predicate IsSubsequence<T>(a: seq<T>, b: seq<T>)
    decreases |b|
  {
    if a == [] then true
    else if b == [] then false
    else if a[0] == b[0] then IsSubsequence(a[1..], b[1..])
    else IsSubsequence(a, b[1..])
  }

  /** No element occurs twice. */
  ghost predicate NoDuplicates<T>(s: seq<T>) {
    forall i, j :: 0 <= i < j < |s| ==> s[i] != s[j]
  }

  /** Filtering never reorders: the result is a subsequence of the input. */
  lemma {:induction false} FilterIsSubsequence<T(!new)>(s: seq<T>, keep: T -> bool)
    ensures IsSubsequence(Filter(s, keep), s)
  {
    if s != [] {
      FilterIsSubsequence(s[1..], keep);
      if keep(s[0]) {
        assert Filter(s, keep) == [s[0]] + Filter(s[1..], keep);
        assert ([s[0]] + Filter(s[1..], keep))[1..] == Filter(s[1..], keep);
      } else {
        SubsequenceOfTail(Filter(s[1..], keep), s);
      }
    }
  }

  /** A subsequence of the tail is a subsequence of the whole. */
  lemma {:induction false} SubsequenceOfTail<T>(a: seq<T>, b: seq<T>)
    requires b != []
    requires IsSubsequence(a, b[1..])
    ensures IsSubsequence(a, b)
    decreases |b|, 0
  {
    if a != [] && a[0] == b[0] {
      // IsSubsequence(a, b[1..]) with a[0] == b[0]: either the head matches at b[1],
      // or a skips b[1]; in both cases a[1..] is a subsequence of b[1..].
      DropHead(a, b[1..]);
    }
  }

  /** Dropping the first element of a subsequence keeps it a subsequence. */
  lemma {:induction false} DropHead<T>(a: seq<T>, b: seq<T>)
    requires a != []
    requires IsSubsequence(a, b)
    ensures IsSubsequence(a[1..], b)
    decreases |b|, 1
  {
    assert b != [];
    if a[0] == b[0] {
      if a[1..] != [] {
        SubsequenceOfTail(a[1..], b);
      }
    } else {
      DropHead(a, b[1..]);
      if a[1..] != [] {
        SubsequenceOfTail(a[1..], b);
      }
    }
  }

  /** Filtering distributes over concatenation, so the relative order of the survivors is the input's. */
  lemma {:induction false} FilterAppend<T(!new)>(a: seq<T>, b: seq<T>, keep: T -> bool)
    ensures Filter(a + b, keep) == Filter(a, keep) + Filter(b, keep)
  {
    if a == [] {
      assert a + b == b;
    } else {
      assert (a + b)[0] == a[0];
      assert (a + b)[1..] == a[1..] + b;
      FilterAppend(a[1..], b, keep);
    }
  }

  /** Filtering twice with the same predicate changes nothing the second time. */
  lemma {:induction false} FilterIdempotent<T(!new)>(s: seq<T>, keep: T -> bool)
    ensures Filter(Filter(s, keep), keep) == Filter(s, keep)
  {
    if s != [] {
      FilterIdempotent(s[1..], keep);
    }
  }

  /** A list in which every element passes comes back unchanged. */
  lemma {:induction false} FilterKeepsAll<T(!new)>(s: seq<T>, keep: T -> bool)
    requires forall x :: x in s ==> keep(x)
    ensures Filter(s, keep) == s
  {
    if s != [] {
      assert forall x :: x in s[1..] ==> x in s;
      FilterKeepsAll(s[1..], keep);
    }
  }

  /** Appending an element not yet present keeps a list free of duplicates. */
  lemma AppendAbsent<T>(s: seq<T>, x: T)
    requires NoDuplicates(s) && x !in s
    ensures NoDuplicates(s + [x])
  {
    var r := s + [x];
    forall i, j | 0 <= i < j < |r| ensures r[i] != r[j] {
      if j == |s| {
        assert r[i] == s[i];
      } else {
        assert r[i] == s[i] && r[j] == s[j];
      }
    }
  }

  /** Filtering a list without duplicates gives a list without duplicates. */
  lemma {:induction false} FilterNoDuplicates<T(!new)>(s: seq<T>, keep: T -> bool)
    requires NoDuplicates(s)
    ensures NoDuplicates(Filter(s, keep))
  {
    if s != [] {
      assert NoDuplicates(s[1..]) by {
        forall i, j | 0 <= i < j < |s[1..]| ensures s[1..][i] != s[1..][j] {
          assert s[1..][i] == s[i + 1] && s[1..][j] == s[j + 1];
        }
      }
      FilterNoDuplicates(s[1..], keep);
      if keep(s[0]) {
        var r := Filter(s[1..], keep);
        assert s[0] !in s[1..] by {
          forall k | 0 <= k < |s[1..]| ensures s[1..][k] != s[0] {
            assert s[1..][k] == s[k + 1];
          }
        }
        assert s[0] !in r;
        forall i, j | 0 <= i < j < |[s[0]] + r| ensures ([s[0]] + r)[i] != ([s[0]] + r)[j] {
          if i == 0 {
            assert ([s[0]] + r)[j] == r[j - 1];
          } else {
            assert ([s[0]] + r)[i] == r[i - 1] && ([s[0]] + r)[j] == r[j - 1];
          }
        }
      }
    }
  }
}

=== FILE: search_page.dfy ===
/**
  The search page (src/pages/SearchPage.tsx): two text boxes, the user's
  search history kept on the server, and the search that saves the text to
  the history and returns to the page the user came from.
 */
module SearchPages {
  import opened Wrappers
  import opened Lists
  import opened Strings

  datatype HistoryItem = HistoryItem(id: int, query: string, timestamp: string)

  /** How a history request ended: it threw, or it was answered. */
  datatype HistoryAnswer = HistoryFailed | HistoryAnswered(success: bool, history: Option<seq<HistoryItem>>)

  /** What a search posts to the history. */
  datatype SearchRequest = SearchRequest(query: string, location: string)

  /** Where a search leads: the path and the state handed to it. */
  datatype Navigation = Navigation(path: string, searchQuery: string, location: string)

  /** The location every search is sent with; the page offers no way to change it. */
  const DefaultLocation: string := "Kerala, India"

  /** `fetchSearchHistory`: a successful answer replaces the history (no list gives the empty one); anything else keeps it. */
  function Refreshed(history: seq<HistoryItem>, answer: HistoryAnswer): (r: seq<HistoryItem>)
    ensures !(answer.HistoryAnswered? && answer.success) ==> r == history
    ensures answer.HistoryAnswered? && answer.success ==> r == answer.history.GetOr([])
  {
    match answer
    case HistoryAnswered(true, h) => h.GetOr([])
    case _ => history
  }

  /** `query || companyName`: the argument unless it is missing or empty. */
  function FinalQuery(query: Option<string>, companyName: string): (r: string)
    ensures r == companyName || (query.Some? && r == query.value)
    ensures r == "" <==> (query.None? || query.value == "") && companyName == ""
    ensures query.Some? && query.value != "" ==> r == query.value
  {
    if query.Some? && query.value != "" then query.value else companyName
  }

  /** `state?.returnTo || "/jobs"`. */
  function ReturnPath(returnTo: Option<string>): (r: string)
    ensures r != ""
    ensures returnTo.Some? && returnTo.value != "" ==> r == returnTo.value
    ensures !(returnTo.Some? && returnTo.value != "") ==> r == "/jobs"
  {
    if returnTo.Some? && returnTo.value != "" then returnTo.value else "/jobs"
  }

  /**
    The request a search posts: none when the text is blank, otherwise the
    trimmed text, which is not empty, neither starts nor ends with
    whitespace, and is left unchanged by a second trim.
   */
  function RequestFor(finalQuery: string, location: string): (r: Option<SearchRequest>)
    ensures r.None? <==> IsBlank(finalQuery)
    ensures r.Some? ==> r.value.location == location && r.value.query == Trim(finalQuery)
    ensures r.Some? ==> r.value.query != "" && Trim(r.value.query) == r.value.query
    ensures r.Some? ==> !IsWhitespace(r.value.query[0]) && !IsWhitespace(r.value.query[|r.value.query| - 1])
  {
    var trimmed := Trim(finalQuery);
    TrimIdempotent(finalQuery);
    if trimmed == "" then None else Some(SearchRequest(trimmed, location))
  }

  /** Deleting a history entry keeps the other entries, in their order. */
  lemma DeleteKeepsOthers(history: seq<HistoryItem>, id: int)
    ensures forall h :: h in Filter(history, (x: HistoryItem) => x.id != id) <==> h in history && h.id != id
    ensures IsSubsequence(Filter(history, (x: HistoryItem) => x.id != id), history)
  {
    FilterIsSubsequence(history, (x: HistoryItem) => x.id != id);
  }

  class SearchPage {
    /** The text of the first box (title, skill or company). */
    var companyName: string
    /** The text of the location box; no search reads it. */
    var locationText: string
    var history: seq<HistoryItem>
    var loading: bool
    /** `returnTo` from the navigation state; the page ignores `currentQuery`. */
    const returnTo: Option<string>

    constructor (returnTo: Option<string>)
      ensures companyName == "" && locationText == "" && history == [] && !loading
      ensures this.returnTo == returnTo
    {
      companyName, locationText, history, loading := "", "", [], false;
      this.returnTo := returnTo;
    }

    /** The mount effect, and every refresh after a search. */
    method LoadHistory(answer: HistoryAnswer)
      modifies this
      ensures history == Refreshed(old(history), answer)
      ensures companyName == old(companyName) && locationText == old(locationText) && loading == old(loading)
    {
      history := Refreshed(history, answer);
    }

    /** Typing in (or clearing) the first box. */
    method SetCompanyName(text: string)
      modifies this
      ensures companyName == text
      ensures locationText == old(locationText) && history == old(history) && loading == old(loading)
    {
      companyName := text;
    }

    /** Typing in (or clearing) the location box. */
    method SetLocationText(text: string)
      modifies this
      ensures locationText == text
      ensures companyName == old(companyName) && history == old(history) && loading == old(loading)
    {
      locationText := text;
    }

    /**
      `handleSearch(query)`, run by Enter in either box: a blank text does
      nothing; otherwise the trimmed text is posted with the fixed location
      and, when the post succeeded (`posted`), the history is refreshed (its
      own failure is swallowed) and the user is taken back with the trimmed
      text. The location box plays no part.
     */
    method Search(query: Option<string>, posted: bool, refreshed: HistoryAnswer)
      returns (request: Option<SearchRequest>, navigation: Option<Navigation>)
      modifies this
      ensures request == RequestFor(FinalQuery(query, old(companyName)), DefaultLocation)
      ensures navigation.Some? <==> request.Some? && posted
      ensures navigation.Some? ==>
        navigation.value == Navigation(ReturnPath(returnTo), request.value.query, DefaultLocation)
      ensures history == if navigation.Some? then Refreshed(old(history), refreshed) else old(history)
      ensures request.Some? ==> !loading
      ensures request.None? ==> loading == old(loading)
      ensures companyName == old(companyName) && locationText == old(locationText)
    {
      var finalQuery := FinalQuery(query, companyName);
      request := RequestFor(finalQuery, DefaultLocation);
      navigation := None;
      if request.None? {
        return;
      }
      loading := true;
      if posted {
        LoadHistory(refreshed);
        navigation := Some(Navigation(ReturnPath(returnTo), request.value.query, DefaultLocation));
      }
      loading := false;
    }

    /**
      A click on a history entry: the search runs with the entry's text, and
      the first box then shows that text. An entry with empty text falls back
      to what the box held before the click.
     */
    method ClickHistoryItem(item: HistoryItem, posted: bool, refreshed: HistoryAnswer)
      returns (request: Option<SearchRequest>, navigation: Option<Navigation>)
      modifies this
      ensures request == RequestFor(if item.query != "" then item.query else old(companyName), DefaultLocation)
      ensures navigation.Some? <==> request.Some? && posted
      ensures navigation.Some? ==>
        navigation.value == Navigation(ReturnPath(returnTo), request.value.query, DefaultLocation)
      ensures history == if navigation.Some? then Refreshed(old(history), refreshed) else old(history)
      ensures request.Some? ==> !loading
      ensures request.None? ==> loading == old(loading)
      ensures companyName == item.query && locationText == old(locationText)
    {
      assert FinalQuery(Some(item.query), companyName) == if item.query != "" then item.query else companyName;
      request, navigation := Search(Some(item.query), posted, refreshed);
      companyName := item.query;
    }

    /** Deleting one entry: it leaves the history only when the server acknowledged the deletion. */
    method DeleteItem(id: int, acknowledged: bool)
      modifies this
      ensures history == if acknowledged then Filter(old(history), (x: HistoryItem) => x.id != id) else old(history)
      ensures forall h :: h in history ==> h in old(history)
      ensures acknowledged ==> forall h :: h in history ==> h.id != id
      ensures companyName == old(companyName) && locationText == old(locationText) && loading == old(loading)
    {
      if acknowledged {
        history := Filter(history, (x: HistoryItem) => x.id != id);
      }
    }

    /** "Clear all": the history empties only when the server acknowledged it. */
    method ClearAll(acknowledged: bool)
      modifies this
      ensures history == if acknowledged then [] else old(history)
      ensures companyName == old(companyName) && locationText == old(locationText) && loading == old(loading)
    {
      if acknowledged {
        history := [];
      }
    }
  }
}

=== FILE: strings.dfy ===
/**
  The two JavaScript string operations the components rely on:
  `String.prototype.trim` and the string conversion of an array of strings
  (`Array.prototype.toString`, which joins the elements with commas).
 */
module Strings {

  /** The characters ECMAScript's `trim` removes: WhiteSpace (including every Zs space) and LineTerminator. */
  predicate IsWhitespace(c: char) {
    || c == ' ' || c == '\t' || c == '\n' || c == '\r'
    || c == '\U{000B}' || c == '\U{000C}' || c == '\U{00A0}' || c == '\U{FEFF}'
    || c == '\U{1680}' || ('\U{2000}' <= c <= '\U{200A}')
    || c == '\U{2028}' || c == '\U{2029}' || c == '\U{202F}' || c == '\U{205F}' || c == '\U{3000}'
  }

  /** Every character of `s` is whitespace (the empty string included). */
  ghost predicate IsBlank(s: string) {
    forall i :: 0 <= i < |s| ==> IsWhitespace(s[i])
  }

  /** Leading whitespace removed: what is left is a suffix of `s` that does not start with whitespace. */
  function TrimStart(s: string): (r: string)
    ensures |r| <= |s| && r == s[|s| - |r|..]
    ensures IsBlank(s[..|s| - |r|])
    ensures r == [] || !IsWhitespace(r[0])
  {
    if s != [] && IsWhitespace(s[0]) then TrimStart(s[1..]) else s
  }

  /** Trailing whitespace removed: what is left is a prefix of `s` that does not end with whitespace. */
  function TrimEnd(s: string): (r: string)
    ensures |r| <= |s| && r == s[..|r|]
    ensures IsBlank(s[|r|..])
    ensures r == [] || !IsWhitespace(r[|r| - 1])
  {
    if s != [] && IsWhitespace(s[|s| - 1]) then TrimEnd(s[..|s| - 1]) else s
  }

  /** `r` is `s` with some blank prefix and some blank suffix cut off. */
  ghost predicate Strips(s: string, r: string) {
    exists i, j :: 0 <= i <= j <= |s| && r == s[i..j] && IsBlank(s[..i]) && IsBlank(s[j..])
  }

  /** `s.trim()`: a contiguous part of `s` that neither starts nor ends with whitespace; it is empty exactly when `s` is blank. */
  function Trim(s: string): (r: string)
    ensures r == [] || (!IsWhitespace(r[0]) && !IsWhitespace(r[|r| - 1]))
    ensures r == [] <==> IsBlank(s)
  {
    var t := TrimStart(s);
    var r := TrimEnd(t);
    assert r != [] ==> r[0] == t[0];
    assert r == [] ==> IsBlank(s) by {
      if r == [] {
        assert s == s[..|s| - |t|] + t;
        assert IsBlank(t) by { assert t[|r|..] == t; }
      }
    }
    r
  }

  /** What `trim` returns is the text of `s` itself, with only blank text cut off at either end. */
  lemma TrimKeepsText(s: string)
    ensures Strips(s, Trim(s))
  {
    var t := TrimStart(s);
    var r := TrimEnd(t);
    var i := |s| - |t|;
    var j := i + |r|;
    assert r == s[i..j] && IsBlank(s[..i]);
    assert IsBlank(s[j..]) by {
      assert s[j..] == t[|r|..];
    }
  }

  /** Trimming an already trimmed string changes nothing. */
  lemma TrimIdempotent(s: string)
    ensures Trim(Trim(s)) == Trim(s)
  {
    var r := Trim(s);
    if r != [] {
      assert TrimStart(r) == r;
      assert TrimEnd(r) == r;
    }
  }

  /** The string conversion of a string array: the elements joined with ",". */
  function Join(names: seq<string>): (r: string)
    ensures r == [] <==> names == [] || names == [""]
    ensures |names| == 1 ==> r == names[0]
  {
    if |names| == 0 then ""
    else if |names| == 1 then names[0]
    else names[0] + "," + Join(names[1..])
  }
}

=== FILE: sub_sheets.dfy ===
/**
  The selection panels the filter sheet opens for one criterion each
  (src/features/jobs/components/{Date,Experience,Remote,JobType,Company}FilterSheet.tsx).

  Each panel is mounted afresh whenever the sheet opens it, holds its own
  selection, and reports through two callbacks: `onApply` with the selection,
  and `onClose`. The four single-choice panels differ only in their options,
  their initial selection and whether Apply also closes; the company panel
  keeps a list and a text input.
 */
module SubSheets {
  import opened Lists
  import opened Strings
  import opened FilterCodec

  /** A call a panel makes to its parent, in order. */
  datatype Callback<T> = Apply(value: T) | Close

  const DateOptions: seq<string> := ["Any time", "Past 24 hours", "Past week", "Past month"]
  const ExperienceOptions: seq<string> := ["Anytime", "Past month", "Past week", "Past 24 hours"]
  const RemoteOptions: seq<string> := ["On-site", "Remote", "Hy-brid"]
  const JobTypeOptions: seq<string> := ["Full Time", "Internship", "Temporary", "Contract", "Other"]

  /** A panel that offers fixed options, one of which is selected at a time. */
  class ChoiceSheet {
    const options: seq<string>
    /** Whether Apply calls `onClose` after `onApply`. */
    const closesOnApply: bool
    var selected: string

    /** The date panel: starts at "Any time"; Apply does not close it. */
    constructor Date()
      ensures options == DateOptions && !closesOnApply
      ensures selected == "Any time"
    {
      options, closesOnApply := DateOptions, false;
      selected := "Any time";
    }

    /** The experience panel: starts at `initialSelection`, by default "Anytime". */
    constructor Experience(initialSelection: string := "Anytime")
      ensures options == ExperienceOptions && closesOnApply
      ensures selected == initialSelection
    {
      options, closesOnApply := ExperienceOptions, true;
      selected := initialSelection;
    }

    /** The remote panel: starts at `initialSelection`, by default "Anytime", which is not among its options. */
    constructor Remote(initialSelection: string := "Anytime")
      ensures options == RemoteOptions && closesOnApply
      ensures selected == initialSelection
    {
      options, closesOnApply := RemoteOptions, true;
      selected := initialSelection;
    }

    /** The job type panel: starts at `initialSelection`, by default its first option "Full Time". */
    constructor JobType(initialSelection: string := JobTypeOptions[0])
      ensures options == JobTypeOptions && closesOnApply
      ensures selected == initialSelection
    {
      options, closesOnApply := JobTypeOptions, true;
      selected := initialSelection;
    }

    /** Clicking an option's button replaces the selection with that option. */
    method Click(option: string)
      requires option in options
      modifies this
      ensures selected == option
    {
      selected := option;
    }

    /** The Apply button: `onApply(selected)`, then `onClose()` for every panel but the date panel. */
    method ApplySelection() returns (calls: seq<Callback<string>>)
      ensures |calls| >= 1 && calls[0] == Apply(selected)
      ensures calls == if closesOnApply then [Apply(selected), Close] else [Apply(selected)]
    {
      calls := [Apply(selected)];
      if closesOnApply {
        calls := calls + [Close];
      }
    }
  }

  // ---------------------------------------------------------------------------
  // Company panel
  // ---------------------------------------------------------------------------

  const DefaultCompanies: seq<string> := ["Nirman Academy", "KBros Aristo Pvt Ltd"]

  /** `prev.filter(item => item !== option)`. */
  function Without(selection: seq<string>, option: string): (r: seq<string>)
    ensures option !in r && forall x :: x != option ==> (x in r <==> x in selection)
  {
    Filter(selection, (x: string) => x != option)
  }

  /**
    `toggleSelection`: a selected option is removed (every copy of it), an
    unselected one is appended at the end.
   */
  function ToggleSelection(selection: seq<string>, option: string): (r: seq<string>)
    ensures option in r <==> option !in selection
    ensures forall x :: x != option ==> (x in r <==> x in selection)
    ensures option !in selection ==> r == selection + [option]
  {
    if option in selection then Without(selection, option) else selection + [option]
  }

  /** Removing an option that occurs once leaves the multiset minus that one occurrence. */
  lemma {:induction false} WithoutOnce(s: seq<string>, option: string)
    requires NoDuplicates(s) && option in s
    ensures multiset(Without(s, option)) + multiset{option} == multiset(s)
  {
    assert s == [s[0]] + s[1..];
    assert NoDuplicates(s[1..]) by {
      forall i, j | 0 <= i < j < |s[1..]| ensures s[1..][i] != s[1..][j] {
        assert s[1..][i] == s[i + 1] && s[1..][j] == s[j + 1];
      }
    }
    if s[0] == option {
      assert option !in s[1..] by {
        forall k | 0 <= k < |s[1..]| ensures s[1..][k] != option {
          assert s[1..][k] == s[k + 1];
        }
      }
      FilterKeepsAll(s[1..], (x: string) => x != option);
      assert Without(s, option) == Without(s[1..], option);
    } else {
      WithoutOnce(s[1..], option);
      assert Without(s, option) == [s[0]] + Without(s[1..], option);
    }
  }

  /**
    Toggling the same option twice: an unselected option leaves the selection
    exactly as it was; a selected one (in a list without duplicates) comes back
    as the same elements, moved to the end.
   */
  lemma ToggleTwice(selection: seq<string>, option: string)
    ensures option !in selection ==> ToggleSelection(ToggleSelection(selection, option), option) == selection
    ensures option in selection && NoDuplicates(selection) ==>
      && ToggleSelection(ToggleSelection(selection, option), option) == Without(selection, option) + [option]
      && multiset(ToggleSelection(ToggleSelection(selection, option), option)) == multiset(selection)
  {
    if option !in selection {
      FilterAppend(selection, [option], (x: string) => x != option);
      FilterKeepsAll(selection, (x: string) => x != option);
      assert Without([option], option) == [];
    } else if NoDuplicates(selection) {
      WithoutOnce(selection, option);
    }
  }

  /** A selection without duplicates stays without duplicates under toggling. */
  lemma ToggleKeepsNoDuplicates(selection: seq<string>, option: string)
    requires NoDuplicates(selection)
    ensures NoDuplicates(ToggleSelection(selection, option))
  {
    if option in selection {
      FilterNoDuplicates(selection, (x: string) => x != option);
    } else {
      AppendAbsent(selection, option);
    }
  }

  /** The company panel: a growing list of options, a selection list and an input box. */
  class CompanySheet {
    var options: seq<string>
    var selected: seq<string>
    var input: string

    /** The options never contain the same name twice. */
    ghost predicate Valid()
      reads this
    {
      NoDuplicates(options)
    }

    /**
      Starts with the two built-in companies and `initialSelection`, by default
      the empty list (an empty array is truthy, so the "Any" fallback of the
      state initialiser is never taken).
     */
    constructor (initialSelection: seq<string> := [])
      ensures Valid()
      ensures options == DefaultCompanies && selected == initialSelection && input == ""
    {
      options := DefaultCompanies;
      selected := initialSelection;
      input := "";
    }

    /** Clicking a company's button toggles it in the selection. */
    method Click(option: string)
      requires Valid() && option in options
      modifies this
      ensures Valid()
      ensures selected == ToggleSelection(old(selected), option)
      ensures options == old(options) && input == old(input)
    {
      selected := ToggleSelection(selected, option);
    }

    /** Typing in the input box. */
    method Type(text: string)
      modifies this
      ensures input == text && options == old(options) && selected == old(selected)
    {
      input := text;
    }

    /**
      Submitting the input: blank input changes neither list; otherwise the
      input is added to the options unless already there (compared untrimmed)
      and toggled in the selection. The input is cleared in every case.
     */
    method Submit()
      requires Valid()
      modifies this
      ensures Valid()
      ensures old(options) <= options
      ensures options == if Trim(old(input)) != "" && old(input) !in old(options)
                         then old(options) + [old(input)] else old(options)
      ensures selected == if Trim(old(input)) != ""
                          then ToggleSelection(old(selected), old(input)) else old(selected)
      ensures input == ""
    {
      var name := input;
      if Trim(name) != "" {
        if name !in options {
          AppendAbsent(options, name);
          options := options + [name];
        }
        selected := ToggleSelection(selected, name);
      }
      input := "";
    }

    /** The "Show results" button: `onApply(selected)`, then `onClose()`. */
    method ApplySelection() returns (calls: seq<Callback<seq<string>>>)
      ensures calls == [Apply(selected), Close]
    {
      calls := [Apply(selected), Close];
    }
  }

  // ---------------------------------------------------------------------------
  // What an unchanged Apply stores in the sheet
  // ---------------------------------------------------------------------------

  /** The date panel's default "Any time" is not the sentinel "Anytime": it is written to the query and flagged active. */
  lemma DateDefaultIsWrittenAndFlagged(c: Criteria)
    ensures var c' := Set(c, DatePosted, Str("Any time"));
      && "datePosted" in Encoded(c') && Encoded(c')["datePosted"] == "Any time"
      && Summary(c')["datePosted"]
  {
    var c' := Set(c, DatePosted, Str("Any time"));
    assert Value(c', DatePosted) == Str("Any time");
  }

  /** The experience panel's default "Anytime" is dropped from the query, yet the summary flags experience as active. */
  lemma ExperienceDefaultIsHiddenButFlagged(c: Criteria)
    ensures var c' := Set(c, ExperienceLevel, Str("Anytime"));
      && "experienceLevel" !in Encoded(c')
      && Summary(c')["experienceLevel"]
      && Decode(Encoded(c')).experienceLevel == "Any"
  {
    var c' := Set(c, ExperienceLevel, Str("Anytime"));
    assert Value(c', ExperienceLevel) == Str("Anytime");
    ExperienceAnytimeComesBackAny(c');
  }

  /** The remote panel's default "Anytime" is dropped from the query and comes back as "Any". */
  lemma RemoteDefaultIsLost(c: Criteria)
    ensures "Anytime" !in RemoteOptions
    ensures var c' := Set(c, Remote, Str("Anytime"));
      && "remote" !in Encoded(c')
      && Decode(Encoded(c')).remote == "Any"
  {
    var c' := Set(c, Remote, Str("Anytime"));
    assert Value(c', Remote) == Str("Anytime");
    DecodeField(Encoded(c'), Remote);
  }

  /** The job type panel's default "Full Time" is not a sentinel, so it is written to the query. */
  lemma JobTypeDefaultIsWritten(c: Criteria)
    ensures var c' := Set(c, JobType, Str(JobTypeOptions[0]));
      && "jobType" in Encoded(c') && Encoded(c')["jobType"] == "Full Time"
  {
    var c' := Set(c, JobType, Str(JobTypeOptions[0]));
    assert Value(c', JobType) == Str("Full Time");
  }
}

=== FILE: top_jobs_picks.dfy ===
/**
  The recommendations block (src/features/jobs/components/TopJobsPicks.tsx):
  up to ten recommended jobs, a "show all" button that asks for all of them,
  and its own fallback listings with an error message when the request fails.
 */
module TopPicks {
  import opened Wrappers
  import opened Jobs

  const LoadFailedMessage: string := "Failed to load recommended jobs"

  /**
    The parameters of a recommendations request: type `top_picks` in Kerala,
    limited to 10 unless all are asked for (an undefined limit is not sent).
   */
  function RecommendationParams(loadAll: bool): (r: map<string, ParamValue>)
    ensures "limit" in r <==> !loadAll
    ensures !loadAll ==> r["limit"] == Number(10)
    ensures "type" in r && r["type"] == Text("top_picks")
    ensures "location" in r && r["location"] == Text("Kerala")
    ensures |r.Keys| == if loadAll then 2 else 3
  {
    var base := map["type" := Text("top_picks"), "location" := Text("Kerala")];
    if loadAll then base else base["limit" := Number(10)]
  }

  /**
    The "show all" button is offered when loading is over, some job is listed
    and all were not yet asked for; so it is only offered while the list was
    requested with its limit of 10.
   */
  predicate OffersShowAll(loading: bool, jobs: seq<Job>, showAll: bool)
    ensures OffersShowAll(loading, jobs, showAll) ==> "limit" in RecommendationParams(showAll)
  {
    !loading && jobs != [] && !showAll
  }

  /**
    The block renders nothing exactly when an error is set and no job is left;
    a block that renders nothing never offers the "show all" button, whatever
    the loading and show-all flags.
   */
  predicate RendersNothing(error: Option<string>, jobs: seq<Job>)
    ensures RendersNothing(error, jobs) ==> forall loading, showAll :: !OffersShowAll(loading, jobs, showAll)
  {
    error.Some? && jobs == []
  }

  /** The fallback listings carry the ids 1, 2 and 3, in that order. */
  lemma FallbackIds()
    ensures |TopPicksFallback| == 3
    ensures TopPicksFallback[0].id == 1 && TopPicksFallback[1].id == 2 && TopPicksFallback[2].id == 3
    ensures forall j :: j in TopPicksFallback ==> j.id == 1 || j.id == 2 || j.id == 3
  {
  }

  /**
    After a failed request, whatever ids are dismissed and in whatever order,
    the block disappears exactly when the three fallback listings (ids 1, 2
    and 3) have all been dismissed.
   */
  lemma FallbackHiddenExactlyWhenAllDismissed(ids: seq<int>)
    ensures RendersNothing(Some(LoadFailedMessage), DismissedAll(Listed(Failed, TopPicksFallback), ids))
      <==> 1 in ids && 2 in ids && 3 in ids
  {
    FallbackIds();
    DismissedAllEmpty(TopPicksFallback, ids);
    if 1 in ids && 2 in ids && 3 in ids {
      assert forall j :: j in TopPicksFallback ==> j.id in ids;
    } else {
      var k :| 0 <= k < 3 && TopPicksFallback[k].id !in ids;
      assert TopPicksFallback[k] in TopPicksFallback;
    }
  }

  class TopJobsPicks {
    var jobs: seq<Job>
    var loading: bool
    var error: Option<string>
    var showAll: bool
    /** Whether the parent passed `onJobDismiss`. */
    const hasDismissHandler: bool

    /** The error slot only ever holds the one message. */
    ghost predicate Valid()
      reads this
    {
      error.Some? ==> error.value == LoadFailedMessage
    }

    constructor (hasDismissHandler: bool)
      ensures Valid()
      ensures jobs == [] && loading && error == None && !showAll
      ensures this.hasDismissHandler == hasDismissHandler
    {
      jobs, loading, error, showAll := [], true, None, false;
      this.hasDismissHandler := hasDismissHandler;
    }

    /**
      `fetchTopJobs(loadAll)`: on success the returned jobs and no error; on
      failure the fallback listings and the error message.
     */
    method Fetch(loadAll: bool, outcome: Outcome) returns (params: map<string, ParamValue>)
      requires Valid()
      modifies this
      ensures Valid()
      ensures params == RecommendationParams(loadAll)
      ensures jobs == Listed(outcome, TopPicksFallback) && !loading
      ensures error == if Succeeded(outcome) then None else Some(LoadFailedMessage)
      ensures showAll == old(showAll)
    {
      loading, error := true, None;
      params := RecommendationParams(loadAll);
      if Succeeded(outcome) {
        jobs := outcome.jobs.GetOr([]);
      } else {
        error := Some(LoadFailedMessage);
        jobs := TopPicksFallback;
      }
      loading := false;
    }

    /** The "show all" button: remembers the choice, which hides the button for good, and fetches without a limit. */
    method ShowAll(outcome: Outcome) returns (params: map<string, ParamValue>)
      requires Valid() && OffersShowAll(loading, jobs, showAll)
      modifies this
      ensures Valid() && showAll
      ensures !OffersShowAll(loading, jobs, showAll)
      ensures params == RecommendationParams(true) && "limit" !in params
      ensures jobs == Listed(outcome, TopPicksFallback) && !loading
      ensures error == if Succeeded(outcome) then None else Some(LoadFailedMessage)
    {
      showAll := true;
      params := Fetch(true, outcome);
    }

    /**
      `handleJobDismiss`: the job leaves the list at once, without asking the
      server, and its id is passed on to the parent's handler when there is one.
     */
    method Dismiss(id: int) returns (forwarded: Option<int>)
      requires Valid()
      modifies this
      ensures Valid()
      ensures jobs == Dismissed(old(jobs), id)
      ensures forwarded == if hasDismissHandler then Some(id) else None
      ensures loading == old(loading) && error == old(error) && showAll == old(showAll)
    {
      jobs := Dismissed(jobs, id);
      forwarded := if hasDismissHandler then Some(id) else None;
    }
  }
}

=== FILE: use_filter.dfy ===
/**
  The notification filter hook (src/features/notifications/hooks/useFilter.tsx):
  the selected category and the notifications it lets through.
 */
module NotificationFilters {
  import opened Lists

  datatype FilterOption = All | Preference | Posts | Mentions

  /** A notification, reduced to its category name and the rest of its content. */
  datatype Notification = Notification(kind: string, content: string)

  /** The category name a filter option matches. */
  function KindName(option: FilterOption): (name: string)
    requires option != All
    ensures name in {"preference", "posts", "mentions"}
  {
    match option
    case Preference => "preference"
    case Posts => "posts"
    case Mentions => "mentions"
  }

  /** Different options match different categories. */
  lemma KindNamesDiffer(a: FilterOption, b: FilterOption)
    requires a != All && b != All && a != b
    ensures KindName(a) != KindName(b)
  {
  }

  /** `filterNotifications`: every notification for "all", otherwise those of the selected category, in order. */
  function Visible(notifications: seq<Notification>, option: FilterOption): (r: seq<Notification>)
    ensures option == All ==> r == notifications
    ensures option != All ==> forall n :: n in r <==> n in notifications && n.kind == KindName(option)
    ensures multiset(r) <= multiset(notifications)
    ensures option != All ==>
      forall n :: multiset(r)[n] == if n.kind == KindName(option) then multiset(notifications)[n] else 0
  {
    if option == All then notifications
    else Filter(notifications, (n: Notification) => n.kind == KindName(option))
  }

  /** What a category filter shows keeps the order of the full list. */
  lemma VisibleKeepsOrder(notifications: seq<Notification>, option: FilterOption)
    ensures IsSubsequence(Visible(notifications, option), notifications)
  {
    if option != All {
      FilterIsSubsequence(notifications, (n: Notification) => n.kind == KindName(option));
    } else {
      FilterKeepsAll(notifications, (n: Notification) => true);
      FilterIsSubsequence(notifications, (n: Notification) => true);
    }
  }

  /** Two different categories never show the same notification. */
  lemma CategoriesAreDisjoint(notifications: seq<Notification>, a: FilterOption, b: FilterOption, n: Notification)
    requires a != All && b != All && a != b
    ensures !(n in Visible(notifications, a) && n in Visible(notifications, b))
  {
    KindNamesDiffer(a, b);
  }

  class NotificationFilter {
    const defaultValue: FilterOption
    /** The notifications the hook filters. */
    const notifications: seq<Notification>
    var selected: FilterOption

    /** Starts at `defaultValue`, by default "all". */
    constructor (notifications: seq<Notification>, defaultValue: FilterOption := All)
      ensures this.notifications == notifications && this.defaultValue == defaultValue
      ensures selected == defaultValue
    {
      this.notifications, this.defaultValue := notifications, defaultValue;
      selected := defaultValue;
    }

    /** `handleFilterChange`. */
    method Change(option: FilterOption)
      modifies this
      ensures selected == option
    {
      selected := option;
    }

    /** `resetFilter`: back to the value the hook was created with. */
    method Reset()
      modifies this
      ensures selected == defaultValue
    {
      selected := defaultValue;
    }

    /** The notifications shown for the current selection. */
    function Shown(): (r: seq<Notification>)
      reads this
      ensures selected == All ==> r == notifications
      ensures forall n :: n in r ==> n in notifications
      ensures selected != All ==> forall n :: n in r <==> n in notifications && n.kind == KindName(selected)
      ensures selected != All ==>
        forall n :: multiset(r)[n] == if n.kind == KindName(selected) then multiset(notifications)[n] else 0
    {
      Visible(notifications, selected)
    }
  }
}

=== FILE: use_jobs.dfy ===
/**
  The job-search hook (src/features/jobs/hooks/useJobs.ts): the job list, the
  loading flag and the error slot for one search text and one set of filter
  toggles, refetched whenever either changes.
 */
module JobsHooks {
  import opened Wrappers
  import opened Jobs

  class JobsHook {
    const searchQuery: string
    /**
      The filter record passed in, as request values: the results page passes
      its toggles (`Flags`), the jobs page its whole criteria record; a caller
      that passes none gives the empty record.
     */
    const filters: map<string, ParamValue>
    var jobs: seq<Job>
    var loading: bool
    /** The hook clears this slot and never fills it. */
    var error: Option<string>

    constructor (searchQuery: string, filters: map<string, ParamValue>)
      ensures this.searchQuery == searchQuery && this.filters == filters
      ensures jobs == [] && loading && error == None
    {
      this.searchQuery, this.filters := searchQuery, filters;
      jobs, loading, error := [], true, None;
    }

    /**
      `fetchJobs`, run by the effect: the request carries the search parameters;
      afterwards the list is what the server sent, or the built-in listings when
      the request failed, loading is over and no error is reported either way.
     */
    method Fetch(outcome: Outcome) returns (params: map<string, ParamValue>)
      modifies this
      ensures params == SearchParams(searchQuery, filters)
      ensures jobs == Listed(outcome, DummyJobs)
      ensures !loading && error == None
    {
      loading, error := true, None;
      params := SearchParams(searchQuery, filters);
      if Succeeded(outcome) {
        jobs := outcome.jobs.GetOr([]);
      } else {
        jobs := DummyJobs;
      }
      loading := false;
    }

    /**
      `dismissJob`: the job leaves the list only when the server acknowledged
      the dismissal; a failed request leaves the list as it was.
     */
    method Dismiss(id: int, acknowledged: bool)
      modifies this
      ensures jobs == if acknowledged then Dismissed(old(jobs), id) else old(jobs)
      ensures loading == old(loading) && error == old(error)
    {
      if acknowledged {
        jobs := Dismissed(jobs, id);
      }
    }
  }
}

=== FILE: wrappers.dfy ===
/** Optional values, standing for TypeScript's `T | undefined` and `T | null`. */
module Wrappers {

  datatype Option<+T> = None | Some(value: T) {

    /** The value, or `default` when absent (the `x ?? default` / `x || default` idiom). */
    function GetOr(default: T): T {
      match this
      case Some(v) => v
      case None => default
    }
  }
}
